=== FILE: README.md ===
# A Dafny model of the meta-protocol proxy's upstream request core

The meta-protocol proxy is an Envoy network filter that proxies arbitrary RPC protocols through a
single abstraction. The project models the part of it that turns a decoded request into an
upstream exchange and proves properties about it:

- **The filter callback contract** (`filter.dfy`, module `Filter`). A filter talks to its
  connection manager through callbacks objects. A callbacks object is set once, before any use.
  `continueDecoding` may only follow a `PauseIteration` the filter returned, and resumes it once.
  `startUpstreamResponse` happens at most once. Nothing is called after `onDestroy`. The contract
  is stated twice: as a predicate over a whole trace of signals (`WellBehaved`), and as a state
  machine (`Step`/`Feed`). The two are proved to agree.
- **The upstream request** (`upstream_base.dfy`, `upstream_request.dfy`, `upstream_by_handler.dfy`).
  Two variants are modelled:
  - `UpstreamRequest` borrows a connection from a TCP connection pool.
  - `UpstreamRequestByHandler` delegates to an upstream handler.

  They share their `UpstreamRequestBase` logic. Each operation (`start`, `onPoolReady`,
  `onPoolFailure`, `onUpstreamConnectionEvent`, `releaseUpStreamConnection`, `encodeData`,
  `onResponseComplete`) is a pure transition. It returns the next state of the request and the
  events it produced. Events are calls on the owning router filter (`RequestOwner`), on the
  outlier detector, on the pool, on the connection and on the handler.
- **The request's whole life** (`lifecycle.dfy`, module `Lifecycle`; the end of
  `upstream_by_handler.dfy`). A pool-based request is started and then driven by any admissible
  sequence of pool answers, connection events and response completion. Finally it is torn down.
  An inductive ledger carries the facts through the run:
  - the owning filter keeps its callback contract;
  - decoding resumes at most once;
  - each failure gets exactly one reply, or, for a one-way request, one reset;
  - every pending pool request is answered or cancelled exactly once;
  - every connection obtained is given back to the pool or handed to the owner exactly once.
    Closing it first when `close` is set is stated per release (`UpstreamRequest.ReleaseCalls`),
    not counted over the run.
- **Preparing an upstream request** (`router.dfy`, module `Router`). This is the
  `prepareUpstreamRequest` cascade: unknown cluster, then maintenance mode, then no healthy pool,
  then success.
- **Route entries** (`route_entry.dfy`, module `RouteEntry`). A weighted-cluster entry overrides
  only its cluster name and, when it has them, its metadata match criteria. It delegates
  everything else to its parent route.
- **Rate-limit descriptors** (`local_ratelimit.dfy`, module `LocalRateLimit`).
  - `toString` is modelled twice and the two are proved equal: as a functional rendering, and as
    the loop that builds it.
  - A parser proves that the rendering loses nothing for plain entries.
  - Descriptor equality and hashing go by the ordered entry list.
  - The descriptor set keeps one bucket per entry list.

`common.dfy` holds `Option` and a substring predicate. `meta_protocol.dfy` holds the shared
message vocabulary: message types, metadata, error types, pool failure reasons, connection
events, outlier results, hosts and connections.

### How collaborators are modelled

- **The owner** (the router filter, seen through `RequestOwner`) is the trace of `Event`s the
  request produces. `CountOf(trace, kind)` counts the events of one kind. Every event has a
  kind, including telling the owner the host and registering callbacks, so a contract that gives
  every kind's count also says that nothing else happens (`UpstreamBase.NoCountNoEvent`).
  `Signals(trace)` projects the trace onto the filter contract.
- **The connection pool and the upstream handler** are modelled as their answers, which become
  inputs. `NewConnection` is what `newConnection` did before returning. `Stimulus` is what
  arrives later. `HandlerAnswer` is what the handler says.
- **What those collaborators may do** is the contract the lifecycle theorem assumes. It has two
  parts:
  - the precondition of `Lifecycle.Begin` and `Lifecycle.RequestLifecycle`: a failure the pool
    reports inline, from within `newConnection`, is an overflow;
  - `Lifecycle.Deliverable`, which covers everything that arrives after `start`.

  `Lifecycle.Deliverable` states that:
  - the pool answers only a pending request;
  - an asynchronous pool failure is a connection error, which is the assumption the comment at
    `upstream_request.cc:108-111` relies on;
  - connection events and the response concern a held connection whose response has not
    completed;
  - nothing arrives once a reply or reset has ended the stream.
- **The codec, the buffer's bytes and the connection write** become a single `Written` or
  `HandlerData` event. That event carries the metadata and the buffered length.
- **A local reply** is kept symbolic in the trace as `LocalReply`. `UpstreamBase.Rendered` gives
  the exception it is sent as.

### Behaviour worth noting

- **Resuming on pool ready.** `onPoolReady` resumes decoding whenever `start` paused, whatever
  the message type (`upstream_request.cc:129-130`, `146`). One-way and streaming messages are
  resumed too.
- **Outlier reports.** A pool failure is reported to the outlier detector only for a timeout or a
  remote connection failure (`upstream_request.cc:115-119`). A local connection failure is not
  reported.
- **Whether a failure resumes decoding.** `onPoolFailure` decides by the failure reason
  (`upstream_request.cc:112-114`), not by whether the failure was reported synchronously.
  `Lifecycle.InlineConnectionErrorBreaksContract` shows why the pool must never report a
  connection error synchronously.
- **Reply and reset together.** A non-one-way request that fails gets a local reply, and also a
  stream reset unless its response completed (`upstream_request.cc:227-229`). It is not only a
  reply.

## Model

| member | source | states |
|---|---|---|
| Filter.AcceptsIffWellBehaved | src/meta_protocol_proxy/filters/filter.h:119-259 | the state machine accepts a trace exactly when the trace keeps the documented rules. Callbacks are set once and before use, each `continueDecoding` follows an unresumed pause, `startUpstreamResponse` happens at most once, and nothing follows `onDestroy`. After an accepted trace, the machine is in the state summarised from the trace |
| UpstreamBase.Create | src/meta_protocol_proxy/filters/router/upstream_request.cc:14-19 | the new request's buffer takes the original message's length and the metadata keeps none of it. No host is selected and every flag is false |
| UpstreamBase.FeedExcessResume | src/meta_protocol_proxy/filters/filter.h:123-130 | resuming decoding more often than the filter paused is rejected by the callback contract, whatever follows |
| UpstreamBase.ResetMessagesDistinct | src/meta_protocol_proxy/filters/router/upstream_request.cc:191-223 | different failure reasons give different reply messages, whatever the hosts |
| UpstreamBase.ResetMessageNamesHost | src/meta_protocol_proxy/filters/router/upstream_request.cc:198-223 | the reply to a local, remote or timeout connection failure contains the upstream host's address |
| UpstreamBase.Rendered | src/meta_protocol_proxy/filters/router/upstream_request.cc:193-222 | every reset reply is an `Unspecified` exception, and for a connection error its message names the host |
| UpstreamBase.ConnectionResetOutcome | src/meta_protocol_proxy/filters/router/upstream_request.cc:179-230 | the contract of `OnUpstreamConnectionReset`: a one-way request is only reset. Any other request gets exactly one local reply for the reason and host, as its first event, then a reset iff its response has not completed. Every other kind of event, host selection and callback registration included, is produced zero times |
| UpstreamBase.ConnectionEventOutcome | src/meta_protocol_proxy/filters/router/upstream_request.cc:36-56 | the contract of `OnUpstreamConnectionEvent`, and so of `UpstreamRequest.OnConnectionEvent`, which passes its events on and keeps the request's state: a remote or local close ends the stream with exactly one reset. Unless the request is one-way, the first event is the one reply for the close's reason. Only a remote close produces an outlier report, and it comes after the reset. Every other kind of event is produced zero times |
| UpstreamBase.ConnectionEventCalls | src/meta_protocol_proxy/filters/router/upstream_request.cc:40-50 | a remote close is answered as a remote connection failure and reported to the host's outlier detector as a failed connection. A local close is answered as a local connection failure |
| UpstreamBase.OnRequestStart | src/meta_protocol_proxy/filters/router/upstream_request.cc:159-166 | decoding is resumed once when asked to and never otherwise, and nothing else is called |
| UpstreamRequest.Create | src/meta_protocol_proxy/filters/router/upstream_request.cc:21-23 | a new pool request holds neither a pending pool request nor a connection |
| UpstreamRequest.Start | src/meta_protocol_proxy/filters/router/upstream_request.cc:25-34 | `start` pauses iff the pool left a request pending, and then stores exactly that handle and produces nothing. Otherwise it continues and no handle is stored. A pending request and a held connection never coexist |
| UpstreamRequest.EncodeData | src/meta_protocol_proxy/filters/router/upstream_request.cc:87-95 | the buffered request, with its metadata, is written once on the held connection, and the buffer is emptied. Nothing else in the request changes |
| UpstreamRequest.OnPoolFailure | src/meta_protocol_proxy/filters/router/upstream_request.cc:97-122 | after a pool failure, no pool request is pending and no connection is held. The buffer is drained and the failing host is recorded. Nothing else in the request changes |
| UpstreamRequest.FailureTail | src/meta_protocol_proxy/filters/router/upstream_request.cc:112-121 | a timeout is reported as a timeout and a remote failure as a failed connection. Every connection error, and nothing else, resumes decoding |
| UpstreamRequest.OnPoolFailureOutcome | src/meta_protocol_proxy/filters/router/upstream_request.cc:97-122 | per event kind, a pool failure produces one host selection for the owner, plus exactly what a connection reset produces, plus an outlier report for a timeout or a remote failure, plus one resume for a connection error. Every other kind is produced zero times |
| UpstreamRequest.OnPoolFailureCalls | src/meta_protocol_proxy/filters/router/upstream_request.cc:103-119 | the failure's reply carries the reason and the failing host, and the host's outlier detector hears of a timeout or a remote failure |
| UpstreamRequest.OnPoolReady | src/meta_protocol_proxy/filters/router/upstream_request.cc:124-157 | afterwards no pool request is pending, the host is recorded, the request is complete and its buffer is empty. The metadata is the old metadata with the connection's remote address added under the real-server-address key, and nothing else in it changes. The connection is kept unless the message is a stream init, which hands it over |
| UpstreamRequest.ReadyPrelude | src/meta_protocol_proxy/filters/router/upstream_request.cc:127-138 | a ready pool first tells the owner the host, reports one successful connection, and registers for upstream callbacks iff the message is a request. Nothing else happens |
| UpstreamRequest.StreamInitHandoff | src/meta_protocol_proxy/filters/router/upstream_request.cc:149-155 | exactly for a stream-init message, the stream is reset once and the connection is handed to the owner once, the reset before the handoff |
| UpstreamRequest.OnPoolReadyOutcome | src/meta_protocol_proxy/filters/router/upstream_request.cc:124-157 | per event kind, `onPoolReady` produces one host selection, one success report, one write, and a resume iff `start` paused. A request message also gets one callback registration. A stream init also gets one reset and one handoff. Every other kind is produced zero times |
| UpstreamRequest.OnPoolReadyCalls | src/meta_protocol_proxy/filters/router/upstream_request.cc:133-155 | the success is reported for the ready host. Callbacks are registered iff the message is a request. The connection is handed to the owner exactly when the request stops holding it |
| UpstreamRequest.OnPoolReadyWrite | src/meta_protocol_proxy/filters/router/upstream_request.cc:141-147 | the write carries the whole buffered request, with the connection's remote address already stored in the metadata |
| UpstreamRequest.Release | src/meta_protocol_proxy/filters/router/upstream_request.cc:58-85 | after release, the stream is marked reset and the request holds neither a pending pool request nor a connection. Nothing else in the request changes |
| UpstreamRequest.ReleaseOutcome | src/meta_protocol_proxy/filters/router/upstream_request.cc:58-85 | release cancels one pool request iff one was pending. It gives one connection back iff one was held, and closes it first iff `close` is set. Every other kind of event, including every call on the owner, is produced zero times |
| UpstreamRequest.ReleaseCalls | src/meta_protocol_proxy/filters/router/upstream_request.cc:62-84 | exactly the pending handle is cancelled. The held connection is closed iff `close` is set. It goes back to the pool in either case, because its connection data is destroyed when the function returns, after any close |
| UpstreamRequest.OnResponseComplete | src/meta_protocol_proxy/filters/router/upstream_request.cc:168-171 | after the response completes, no connection is held and a pending pool request is untouched. Nothing else in the request changes |
| UpstreamRequest.ResponseCompleteOutcome | src/meta_protocol_proxy/filters/router/upstream_request.cc:168-171 | a held connection, and only it, goes back to the pool, and nothing is called on the owner |
| Lifecycle.Begin | src/meta_protocol_proxy/filters/router/upstream_request.cc:25-34 | a started request never has a pending pool request and a connection at once, and holds a connection only once a host is known |
| Lifecycle.RunKeeps | src/meta_protocol_proxy/filters/router/upstream_request.cc:97-171 | every admissible run of pool answers, connection events and response completions keeps the ledger: the filter contract, resume and answer counts, held connections, and failures and replies |
| Lifecycle.TeardownSettles | src/meta_protocol_proxy/filters/router/upstream_request.cc:58-85 | tearing down a request whose ledger holds leaves the filter silent after destruction and balances pool requests and connections. The request then holds nothing |
| Lifecycle.RequestLifecycle | src/meta_protocol_proxy/filters/router/upstream_request.cc:25-230 | over a whole pool-based request, the following hold:<br>the filter keeps its callback contract;<br>decoding resumes at most once;<br>at most one failure happens, answered by exactly one reply, or by one reset for a one-way request (this bound rests on the `Deliverable` assumption that nothing arrives once the stream has ended);<br>pool requests issued equal pool answers plus cancellations;<br>connections acquired equal connections given back to the pool or handed to the owner (a close before the give-back is not counted here);<br>in the end, nothing is held and the stream is marked reset |
| Lifecycle.InlineConnectionErrorBreaksContract | src/meta_protocol_proxy/filters/router/upstream_request.cc:108-121 | if the pool reported a connection error synchronously, `onPoolFailure` would resume a filter that never paused, which breaks the callback contract |
| UpstreamByHandler.Create | src/meta_protocol_proxy/filters/router/upstream_request.cc:232-236 | a new handler request is not registered with its handler |
| UpstreamByHandler.EncodeData | src/meta_protocol_proxy/filters/router/upstream_request.cc:286-291 | the buffered request is handed to the handler once and the request's state is unchanged |
| UpstreamByHandler.Start | src/meta_protocol_proxy/filters/router/upstream_request.cc:272-280 | when the handler's pool is ready, `start` writes once and continues. Otherwise it registers with the handler and pauses. It pauses iff it registered, and it produces nothing but the write or the registration |
| UpstreamByHandler.OnPoolFailure | src/meta_protocol_proxy/filters/router/upstream_request.cc:238-258 | a handler failure records the host, drains the buffer and leaves the registration as it was |
| UpstreamByHandler.FailureResume | src/meta_protocol_proxy/filters/router/upstream_request.cc:253-257 | a handler failure resumes decoding iff it is a connection error |
| UpstreamByHandler.OnPoolFailureOutcome | src/meta_protocol_proxy/filters/router/upstream_request.cc:238-258 | per event kind, a handler failure produces one host selection for the owner, plus exactly what a reset produces, plus one resume for a connection error. Every other kind, an outlier report included, is produced zero times. A non-one-way request's reply carries the reason and host |
| UpstreamByHandler.OnPoolReady | src/meta_protocol_proxy/filters/router/upstream_request.cc:260-270 | when the handler's pool is ready, the host is recorded and the request is marked complete |
| UpstreamByHandler.OnPoolReadyOutcome | src/meta_protocol_proxy/filters/router/upstream_request.cc:260-270 | the handler's ready answer tells the owner the host once, resumes decoding once and hands the request to the handler once. Every other kind is produced zero times |
| UpstreamByHandler.Release | src/meta_protocol_proxy/filters/router/upstream_request.cc:282-284 | release unregisters from the handler once, produces no other kind of event, and does not mark the stream reset |
| UpstreamByHandler.HandlerLifecycle | src/meta_protocol_proxy/filters/router/upstream_request.cc:238-291 | over a whole handler-based request, the following hold:<br>the filter keeps its callback contract;<br>decoding resumes exactly when the handler answers ready or with a connection error;<br>the request is handed over once iff the pool was or became ready;<br>a failure gets one reply unless the request is one-way;<br>nothing is reported to an outlier detector;<br>the request unregisters |
| Router.PrepareUpstreamRequest | src/meta_protocol_proxy/filters/router/router.h:45-80 | exactly one of exception and pool data is set. Pool data is present iff the cluster exists, is not in maintenance and has a pool, and it is then that pool. The error type is `ClusterNotFound` iff the cluster is unknown, `Unspecified` iff the cluster is in maintenance, and `NoHealthyUpstream` iff it has no pool. The response-code detail is `unknown_cluster`, `cluster_in_maintenance_mode`, `no_healthy_upstream` or empty, respectively. The recorded cluster is replaced whenever the cluster exists |
| Router.RefusalNamesCluster | src/meta_protocol_proxy/filters/router/router.h:48-77 | every refusal's message contains the requested cluster name |
| Router.DetailIdentifiesOutcome | src/meta_protocol_proxy/filters/router/router.h:54-79 | the response-code detail is empty exactly on success, and equal details mean the same outcome |
| RouteEntry.WeightedEntries | src/meta_protocol_proxy/route/route_matcher_impl.h:76-85 | a route has one weighted entry per configured weighted cluster, in order. Each answers with the route's name and its own cluster name |
| RouteEntry.WeightedDelegates | src/meta_protocol_proxy/route/route_matcher_impl.h:84-103 | a weighted entry answers like its parent except for its own cluster name, and its own criteria when present. Route name, mutations, hash policy and mirror policies are the parent's. Its route entry is itself |
| RouteEntry.WeightedLikeParentIff | src/meta_protocol_proxy/route/route_matcher_impl.h:84-100 | a weighted entry is indistinguishable from its parent iff it names the parent's cluster and has no criteria of its own, or the parent's |
| LocalRateLimit.ToString | src/meta_protocol_proxy/filters/local_ratelimit/local_ratelimit_impl.h:40-47 | an empty descriptor renders as the empty string, and a single entry as `key=value` with no separator |
| LocalRateLimit.ToStringLoop | src/meta_protocol_proxy/filters/local_ratelimit/local_ratelimit_impl.h:40-47 | rendering entry by entry into a vector and then joining with `", "` gives the functional rendering |
| LocalRateLimit.ParseToString | src/meta_protocol_proxy/filters/local_ratelimit/local_ratelimit_impl.h:40-47 | for entries without `,` and with no `=` in the key, the rendering can be read back into the same entries in the same order |
| LocalRateLimit.RenderingIsNotAKey | src/meta_protocol_proxy/filters/local_ratelimit/local_ratelimit_impl.h:40-61 | two different descriptors can render alike, so the rendering cannot stand in for the entry-list key |
| LocalRateLimit.EqualIffPointwise | src/meta_protocol_proxy/filters/local_ratelimit/local_ratelimit_impl.h:55-61 | descriptors are equal iff they have the same number of entries and the same entry at every position |
| LocalRateLimit.OrderMatters | src/meta_protocol_proxy/filters/local_ratelimit/local_ratelimit_impl.h:55-61 | two distinct entries in the other order make a different descriptor |
| LocalRateLimit.EqualHashAlike | src/meta_protocol_proxy/filters/local_ratelimit/local_ratelimit_impl.h:49-61 | equal descriptors hash alike, whatever hash of entry lists is used |
| LocalRateLimit.Find | src/meta_protocol_proxy/filters/local_ratelimit/local_ratelimit_impl.h:72 | lookup finds a bucket whose descriptor is equal to the one asked for, and finds none iff no such bucket exists |
| LocalRateLimit.Insert | src/meta_protocol_proxy/filters/local_ratelimit/local_ratelimit_impl.h:72 | inserting keeps at most one bucket per entry list. It adds the bucket iff no equal descriptor is present, and otherwise leaves the set unchanged. Afterwards the descriptor is present |

## Left out

- `response_started_` (`upstream_request.cc:17`). The core only initialises it; none of the modelled operations reads or sets it, so `UpstreamBase.Base` does not carry it.
- Codec, buffers and the network. Encoding, the buffer's bytes and the connection write are one `Written` (or `HandlerData`) event that carries the metadata and the buffered length. The upstream handler's `onData` is not modelled draining the buffer.
- The real-server-address header key. It is the `RealServerAddress` constructor. Its string value is defined in `codec.h`, which is not part of this model.
- Logging and tracing. The logs are not modelled. Some of them read the upstream host's address; see the line on dereferencing an unset upstream host.
- Access logs, the request-ID extension, the shadow writer and `ShadowRouterHandle`. They have no logic in the modelled code.
- `PANIC("not reached")` branches (`upstream_request.cc:54`, `225`). They become preconditions: the connection event is a remote or local close. The failure reason type has only the four handled values.
- `ASSERT`s in `encodeData` and `releaseUpStreamConnection`. They are preconditions: a connection is held and no pool request is pending; a pending pool request and a held connection never coexist.
- `ASSERT(!response_complete_)` in `onUpstreamConnectionEvent` (`upstream_request.cc:37`). It is the precondition `!b.responseComplete` of `UpstreamBase.OnUpstreamConnectionEvent`, and `Lifecycle.Deliverable` delivers no connection event after the response completed. What the code would do after a completed response is not modelled.
- Dereferencing an unset upstream host. The reset replies for connection errors and the remote-close outlier report read `upstream_host_`. `UpstreamBase.ReplyNamesHost`, `UpstreamRequest.FailureNeedsHost` and the host precondition of `UpstreamBase.OnUpstreamConnectionEvent` require a host there. A call with no host, which would dereference a null pointer in the code, is not modelled. One read is not covered by these preconditions. `onUpstreamHostSelected` logs `host->address()` at debug level (`upstream_request.cc:172-175`), and both variants call it on every pool failure (`upstream_request.cc:103`, `244`). The model allows a failure without a host where the code sends no reply that names one: an overflow, or a local connection failure of a one-way request. With debug logging on, the code would dereference a null host there. Because logging is not modelled, this is not reflected.
- Threading in `releaseUpStreamConnection`. Moving `conn_data_` into a local is modelled sequentially, keeping only its effect: nothing is held afterwards.
- `onRequestComplete`. Its body is in the header, which is not part of this model. It is modelled as setting `requestComplete`.
- The assumptions about the pool and the connection: `Lifecycle.Deliverable`, and the inline-failure precondition of `Lifecycle.Begin` and `Lifecycle.RequestLifecycle`. These are the collaborators' contract, not code of the core. `Lifecycle.InlineConnectionErrorBreaksContract` shows what the inline-failure precondition guards against.
- Building a route's weighted entries. The constructor that fills `weighted_clusters_` is in the implementation file. `RouteEntry.WeightedEntries` assumes that it makes one entry per configured weighted cluster, in configuration order; only the entries' answers follow `route_matcher_impl.h:76-85`.
- `RequestOwner`'s virtual methods (`router.h:29-36`). They are the owner-side events of the trace, not functions of their own.
- Route matching. The bodies of `matches`, `route`, `clusterEntry`, `headersMatch`, `shouldShadow` and the weighted-cluster selection arithmetic are in the implementation file, which is not part of this model. A Dafny function of `(metadata, random value)` is deterministic by construction, so the repeatability of `matches` and `route` needs no lemma.
- The request and response mutations themselves. A weighted entry hands out its parent's mutation entries. Applying them happens in the implementation file. `MutationEntry` is a datatype whose key and value are exactly what it was built with.
- `RouteEntry.RouteEntryOf` for a parent route. Its `routeEntry` body is not in the header; the model returns the entry itself, as a weighted entry's does.
- The rate limiter's token arithmetic. `requestAllowed`, the refill timer, the atomics and the thread synchronizer are left out because their bodies are not part of this model. A set element (`Bucket`) carries its token bucket and token count alongside the descriptor, as `LocalDescriptorImpl` does (`local_ratelimit_impl.h:37-39`). The model only stores these fields: nothing reads or changes them, and the set is keyed on the descriptor's entry list alone.
- `LocalRateLimit.Hash` is any function of the entry list, given as a parameter. absl's hash itself is not modelled.
- `DirectResponse::ResponseType` (`filter.h:34-42`) appears only as a datatype. Encoding a direct response is the codec's job.
- Integer widths. Counters, lengths, weights and token counts are unbounded naturals. None of the modelled logic depends on overflow.

=== FILE: common.dfy ===
/** Small helpers shared by every module of the model. */
module Common {

  /** The conventional Some/None datatype, standing in for nullable pointers and absl::optional. */
  datatype Option<+T> = None | Some(value: T)

  /** True iff `sub` occurs as a contiguous run of characters inside `s`. */
  ghost predicate Mentions(s: string, sub: string) {
    exists i | 0 <= i <= |s| - |sub| :: OccursAt(s, sub, i)
  }

  /** `sub` occurs in `s` starting at index `i`. */
  predicate OccursAt(s: string, sub: string, i: nat)
    requires i <= |s| - |sub|
  {
    s[i..i + |sub|] == sub
  }

  /** A string assembled around `sub` mentions it. */
  lemma MentionsInfix(pre: string, sub: string, post: string)
    ensures Mentions(pre + sub + post, sub)
  {
    var s := pre + sub + post;
    assert OccursAt(s, sub, |pre|);
  }
}

=== FILE: filter.dfy ===
/**
  The filter callback contract of the meta protocol filter chain.

  A filter talks to the connection manager through two callbacks objects, one for the
  decoder side and one for the encoder side. The documented rules are:
  - the connection manager hands each callbacks object to the filter once, before any use;
  - `continueDecoding` / `continueEncoding` may only follow a `PauseIteration` the filter
    returned on that side, and each pause is resumed at most once;
  - `startUpstreamResponse` may be called at most once;
  - after `onDestroy` the filter invokes no callbacks at all (and is not invoked again).

  The contract is stated twice: declaratively over a whole trace of signals (`WellBehaved`)
  and as a state machine that accepts or rejects one signal at a time (`Step` / `Feed`).
  `AcceptsIffWellBehaved` proves the two readings agree.
 */
module Filter {
  import opened Common

  /** What a decoder or encoder step returns to the connection manager. */
  datatype FilterStatus = ContinueIteration | PauseIteration | StopIteration

  /** DirectResponse::ResponseType: how a locally generated response is encoded. */
  datatype ResponseType = SuccessReply | ErrorReply | Exception

  /** The two sides of a filter: decoding requests and encoding responses. */
  datatype Direction = Decoder | Encoder

  /** One observable interaction between a filter and its connection manager. */
  datatype Signal =
    | SetCallbacks(dir: Direction)                    // set{Decoder,Encoder}FilterCallbacks
    | Returned(dir: Direction, status: FilterStatus)  // a decode/encode step returned `status`
    | Continue(dir: Direction)                        // continueDecoding / continueEncoding
    | StartUpstreamResponse                           // decoder callback, at most once
    | Callback(dir: Direction)                        // any other use of the `dir` callbacks
    | Destroyed                                       // onDestroy

  /** The signal is an invocation of the `dir` side's callbacks object. */
  predicate UsesCallbacks(s: Signal, dir: Direction) {
    s == Continue(dir) || s == Callback(dir) || (s == StartUpstreamResponse && dir == Decoder)
  }

  function Pauses(t: seq<Signal>, dir: Direction): nat {
    multiset(t)[Returned(dir, PauseIteration)]
  }

  function Continues(t: seq<Signal>, dir: Direction): nat {
    multiset(t)[Continue(dir)]
  }

  // ---------------------------------------------------------------------------------------
  // Declarative reading
  // ---------------------------------------------------------------------------------------

  ghost predicate CallbacksSetOnce(t: seq<Signal>) {
    forall dir :: multiset(t)[SetCallbacks(dir)] <= 1
  }

  ghost predicate CallbacksSetBeforeUse(t: seq<Signal>) {
    forall i, dir | 0 <= i < |t| && UsesCallbacks(t[i], dir) :: SetCallbacks(dir) in t[..i]
  }

  /** In every prefix, a side has been resumed no more often than it paused. */
  ghost predicate ContinueOnlyAfterPause(t: seq<Signal>) {
    forall dir, k | 0 <= k <= |t| :: Continues(t[..k], dir) <= Pauses(t[..k], dir)
  }

  ghost predicate ResponseStartedAtMostOnce(t: seq<Signal>) {
    multiset(t)[StartUpstreamResponse] <= 1
  }

  /** Nothing follows `Destroyed`. */
  ghost predicate SilentAfterDestroy(t: seq<Signal>) {
    forall i | 0 <= i < |t| - 1 :: t[i] != Destroyed
  }

  ghost predicate WellBehaved(t: seq<Signal>) {
    && CallbacksSetOnce(t)
    && CallbacksSetBeforeUse(t)
    && ContinueOnlyAfterPause(t)
    && ResponseStartedAtMostOnce(t)
    && SilentAfterDestroy(t)
  }

  // ---------------------------------------------------------------------------------------
  // Operational reading
  // ---------------------------------------------------------------------------------------

  /** What the connection manager knows about one side of the filter. */
  datatype Side = Side(callbacksSet: bool, outstanding: nat)

  datatype ProtocolState = ProtocolState(decoder: Side, encoder: Side, responseStarted: bool, destroyed: bool)
  {
    function SideOf(dir: Direction): Side {
      match dir
      case Decoder => decoder
      case Encoder => encoder
    }

    function With(dir: Direction, s: Side): ProtocolState {
      match dir
      case Decoder => this.(decoder := s)
      case Encoder => this.(encoder := s)
    }
  }

  const Initial: ProtocolState := ProtocolState(Side(false, 0), Side(false, 0), false, false)

  /** Admits one signal, or rejects it with None. */
  function Step(st: ProtocolState, s: Signal): Option<ProtocolState> {
    if st.destroyed then None
    else
      match s
      case SetCallbacks(dir) =>
        if st.SideOf(dir).callbacksSet then None
        else Some(st.With(dir, st.SideOf(dir).(callbacksSet := true)))
      case Returned(dir, status) =>
        if status == PauseIteration
        then Some(st.With(dir, st.SideOf(dir).(outstanding := st.SideOf(dir).outstanding + 1)))
        else Some(st)
      case Continue(dir) =>
        if !st.SideOf(dir).callbacksSet || st.SideOf(dir).outstanding == 0 then None
        else Some(st.With(dir, st.SideOf(dir).(outstanding := st.SideOf(dir).outstanding - 1)))
      case StartUpstreamResponse =>
        if !st.decoder.callbacksSet || st.responseStarted then None
        else Some(st.(responseStarted := true))
      case Callback(dir) =>
        if !st.SideOf(dir).callbacksSet then None else Some(st)
      case Destroyed =>
        Some(st.(destroyed := true))
  }

  function StepOpt(o: Option<ProtocolState>, s: Signal): Option<ProtocolState> {
    match o
    case None => None
    case Some(st) => Step(st, s)
  }

  /** Runs the state machine over a whole trace; None once any signal was rejected. */
  function Feed(o: Option<ProtocolState>, t: seq<Signal>): Option<ProtocolState>
    decreases |t|
  {
    if |t| == 0 then o else Feed(StepOpt(o, t[0]), t[1..])
  }

  predicate Accepts(t: seq<Signal>) {
    Feed(Some(Initial), t).Some?
  }

  lemma {:induction false} FeedAppend(o: Option<ProtocolState>, a: seq<Signal>, b: seq<Signal>)
    ensures Feed(o, a + b) == Feed(Feed(o, a), b)
    decreases |a|
  {
    if |a| == 0 {
      assert a + b == b;
    } else {
      assert (a + b)[0] == a[0];
      assert (a + b)[1..] == a[1..] + b;
      FeedAppend(StepOpt(o, a[0]), a[1..], b);
    }
  }

  lemma FeedSingle(o: Option<ProtocolState>, s: Signal)
    ensures Feed(o, [s]) == StepOpt(o, s)
  {
    assert [s][1..] == [];
  }

  /** Once a signal was rejected, the trace stays rejected. */
  lemma {:induction false} FeedStuck(t: seq<Signal>)
    ensures Feed(None, t) == None
    decreases |t|
  {
    if |t| > 0 {
      FeedStuck(t[1..]);
    }
  }

  // ---------------------------------------------------------------------------------------
  // The two readings agree
  // ---------------------------------------------------------------------------------------

  /** The state the machine is in after a well-behaved trace, read off the trace itself. */
  ghost function Summary(t: seq<Signal>): ProtocolState {
    ProtocolState(
      Side(SetCallbacks(Decoder) in t, Outstanding(t, Decoder)),
      Side(SetCallbacks(Encoder) in t, Outstanding(t, Encoder)),
      StartUpstreamResponse in t,
      Destroyed in t)
  }

  function Outstanding(t: seq<Signal>, dir: Direction): nat {
    if Continues(t, dir) <= Pauses(t, dir) then Pauses(t, dir) - Continues(t, dir) else 0
  }

  lemma PrefixOfSnoc(p: seq<Signal>, x: Signal)
    ensures forall k | 0 <= k <= |p| :: (p + [x])[..k] == p[..k]
    ensures (p + [x])[..|p| + 1] == p + [x]
    ensures (p + [x])[..|p|] == p
  {
  }

  lemma SnocCallbacksSetOnce(p: seq<Signal>, x: Signal)
    requires CallbacksSetOnce(p)
    ensures CallbacksSetOnce(p + [x]) <==> (x.SetCallbacks? ==> SetCallbacks(x.dir) !in p)
  {
    assert multiset(p + [x]) == multiset(p) + multiset{x};
  }

  lemma SnocCallbacksSetBeforeUse(p: seq<Signal>, x: Signal)
    requires CallbacksSetBeforeUse(p)
    ensures CallbacksSetBeforeUse(p + [x]) <==> (forall dir :: UsesCallbacks(x, dir) ==> SetCallbacks(dir) in p)
  {
    var t := p + [x];
    PrefixOfSnoc(p, x);
    if forall dir :: UsesCallbacks(x, dir) ==> SetCallbacks(dir) in p {
      forall i, dir | 0 <= i < |t| && UsesCallbacks(t[i], dir)
        ensures SetCallbacks(dir) in t[..i]
      {
        if i < |p| {
          assert t[i] == p[i];
        }
      }
    }
    if CallbacksSetBeforeUse(t) {
      forall dir | UsesCallbacks(x, dir)
        ensures SetCallbacks(dir) in p
      {
        assert t[|p|] == x;
      }
    }
  }

  lemma SnocContinueOnlyAfterPause(p: seq<Signal>, x: Signal)
    requires ContinueOnlyAfterPause(p)
    ensures ContinueOnlyAfterPause(p + [x]) <==> (x.Continue? ==> Continues(p, x.dir) < Pauses(p, x.dir))
  {
    var t := p + [x];
    PrefixOfSnoc(p, x);
    assert multiset(t) == multiset(p) + multiset{x};
    if x.Continue? ==> Continues(p, x.dir) < Pauses(p, x.dir) {
      forall dir, k | 0 <= k <= |t|
        ensures Continues(t[..k], dir) <= Pauses(t[..k], dir)
      {
        if k <= |p| {
          assert t[..k] == p[..k];
          assert Continues(p[..k], dir) <= Pauses(p[..k], dir);
        } else {
          assert t[..k] == t;
          assert p[..|p|] == p;
          assert Continues(p[..|p|], dir) <= Pauses(p[..|p|], dir);
        }
      }
    }
    if ContinueOnlyAfterPause(t) && x.Continue? {
      assert t[..|t|] == t;
      assert Continues(t[..|t|], x.dir) <= Pauses(t[..|t|], x.dir);
    }
  }

  lemma SnocSilentAfterDestroy(p: seq<Signal>, x: Signal)
    ensures SilentAfterDestroy(p + [x]) <==> Destroyed !in p
  {
    var t := p + [x];
    if SilentAfterDestroy(t) {
      forall i | 0 <= i < |p| ensures p[i] != Destroyed {
        assert t[i] == p[i];
      }
    }
    if Destroyed !in p {
      forall i | 0 <= i < |t| - 1 ensures t[i] != Destroyed {
        assert t[i] == p[i];
      }
    }
  }

  lemma SilentPrefix(p: seq<Signal>, x: Signal)
    requires SilentAfterDestroy(p + [x])
    ensures SilentAfterDestroy(p)
  {
    SnocSilentAfterDestroy(p, x);
  }

  lemma ContinuePrefix(p: seq<Signal>, x: Signal)
    requires ContinueOnlyAfterPause(p + [x])
    ensures ContinueOnlyAfterPause(p)
  {
    var t := p + [x];
    PrefixOfSnoc(p, x);
    forall dir, k | 0 <= k <= |p|
      ensures Continues(p[..k], dir) <= Pauses(p[..k], dir)
    {
      assert t[..k] == p[..k];
    }
  }

  lemma SetBeforeUsePrefix(p: seq<Signal>, x: Signal)
    requires CallbacksSetBeforeUse(p + [x])
    ensures CallbacksSetBeforeUse(p)
  {
    var t := p + [x];
    PrefixOfSnoc(p, x);
    forall i, dir | 0 <= i < |p| && UsesCallbacks(p[i], dir)
      ensures SetCallbacks(dir) in p[..i]
    {
      assert t[i] == p[i];
      assert t[..i] == p[..i];
    }
  }

  /** Every prefix of a well-behaved trace is well behaved. */
  lemma WellBehavedPrefix(p: seq<Signal>, x: Signal)
    requires WellBehaved(p + [x])
    ensures WellBehaved(p)
  {
    assert multiset(p + [x]) == multiset(p) + multiset{x};
    SilentPrefix(p, x);
    ContinuePrefix(p, x);
    SetBeforeUsePrefix(p, x);
  }

  /** The declarative conditions for extending a well-behaved trace `p` by `x`. */
  ghost predicate Extends(p: seq<Signal>, x: Signal) {
    && (x.SetCallbacks? ==> SetCallbacks(x.dir) !in p)
    && (forall dir :: UsesCallbacks(x, dir) ==> SetCallbacks(dir) in p)
    && (x.Continue? ==> Continues(p, x.dir) < Pauses(p, x.dir))
    && (x == StartUpstreamResponse ==> StartUpstreamResponse !in p)
    && Destroyed !in p
  }

  lemma SnocWellBehavedIff(p: seq<Signal>, x: Signal)
    requires WellBehaved(p)
    ensures WellBehaved(p + [x]) <==> Extends(p, x)
  {
    assert multiset(p + [x]) == multiset(p) + multiset{x};
    SnocCallbacksSetOnce(p, x);
    SnocCallbacksSetBeforeUse(p, x);
    SnocContinueOnlyAfterPause(p, x);
    SnocSilentAfterDestroy(p, x);
  }

  lemma SummaryStepIff(p: seq<Signal>, x: Signal)
    requires WellBehaved(p)
    ensures Step(Summary(p), x).Some? <==> Extends(p, x)
  {
    assert p[..|p|] == p;
    assert forall dir :: Continues(p[..|p|], dir) <= Pauses(p[..|p|], dir);
    assert multiset(p)[StartUpstreamResponse] > 0 <==> StartUpstreamResponse in p;
  }

  /** How the summary moves when a signal is appended. */
  lemma SummarySnoc(p: seq<Signal>, x: Signal)
    requires forall dir :: Continues(p, dir) <= Pauses(p, dir)
    requires Extends(p, x)
    ensures var st := Summary(p); var st' := Summary(p + [x]);
      && st'.decoder.callbacksSet == (st.decoder.callbacksSet || x == SetCallbacks(Decoder))
      && st'.encoder.callbacksSet == (st.encoder.callbacksSet || x == SetCallbacks(Encoder))
      && st'.responseStarted == (st.responseStarted || x == StartUpstreamResponse)
      && st'.destroyed == (x == Destroyed)
      && st'.decoder.outstanding == OutstandingAfter(st.decoder.outstanding, x, Decoder)
      && st'.encoder.outstanding == OutstandingAfter(st.encoder.outstanding, x, Encoder)
  {
    assert multiset(p + [x]) == multiset(p) + multiset{x};
  }

  lemma SummaryStep(p: seq<Signal>, x: Signal)
    requires forall dir :: Continues(p, dir) <= Pauses(p, dir)
    requires Extends(p, x)
    ensures Step(Summary(p), x) == Some(Summary(p + [x]))
  {
    SummarySnoc(p, x);
  }

  function OutstandingAfter(n: nat, x: Signal, dir: Direction): int {
    if x == Returned(dir, PauseIteration) then n + 1
    else if x == Continue(dir) then n - 1
    else n
  }

  /** Extending a well-behaved trace by one signal: the declarative rules say yes exactly
      when the state machine, standing in the summarised state, admits the signal. */
  lemma SnocWellBehaved(p: seq<Signal>, x: Signal)
    requires WellBehaved(p)
    ensures WellBehaved(p + [x]) <==> Step(Summary(p), x).Some?
    ensures WellBehaved(p + [x]) ==> Step(Summary(p), x) == Some(Summary(p + [x]))
  {
    SnocWellBehavedIff(p, x);
    SummaryStepIff(p, x);
    assert p[..|p|] == p;
    assert forall dir :: Continues(p[..|p|], dir) <= Pauses(p[..|p|], dir);
    if Extends(p, x) {
      SummaryStep(p, x);
    }
  }

  /** The state machine accepts exactly the well-behaved traces, and after one it stands in
      the state summarised from the trace. */
  lemma {:induction false} AcceptsIffWellBehaved(t: seq<Signal>)
    ensures Accepts(t) <==> WellBehaved(t)
    ensures Accepts(t) ==> Feed(Some(Initial), t) == Some(Summary(t))
    decreases |t|
  {
    if |t| == 0 {
      assert Feed(Some(Initial), t) == Some(Initial);
      assert Summary(t) == Initial;
    } else {
      var p := t[..|t| - 1];
      var x := t[|t| - 1];
      assert t == p + [x];
      AcceptsIffWellBehaved(p);
      FeedAppend(Some(Initial), p, [x]);
      FeedSingle(Feed(Some(Initial), p), x);
      if WellBehaved(p) {
        SnocWellBehaved(p, x);
      } else {
        if WellBehaved(t) {
          WellBehavedPrefix(p, x);
        }
      }
    }
  }
}

=== FILE: lifecycle.dfy ===
/**
  Lifecycle: one pool-based upstream request from `start` to its release, driven by the
  answers of the connection pool and the events of the upstream connection, with the trace of
  everything it told its owner.

  What the pool and the connection may do is an assumption about those collaborators, stated
  once in `Deliverable`: the pool answers a pending request once, asynchronous pool failures are
  connection errors (the comment in upstream_request.cc that decides when to resume decoding
  relies on this), connection events and the response concern a held connection whose response
  has not completed, and nothing arrives after the request's stream was ended by a reply or a
  reset, because the owner then tears the request down.
 */
module Lifecycle {
  import opened Common
  import opened MetaProtocol
  import opened Filter
  import opened UpstreamBase
  import opened UpstreamRequest

  /** Something the environment does to a started request. */
  datatype Stimulus =
    | PoolReady(conn: Conn, readyHost: Host)
    | PoolFailure(reason: PoolFailureReason, failedHost: Option<Host>)
    | ConnectionClose(event: ConnectionEvent)
    | ResponseComplete

  /** A request in flight, the trace it produced, and a ledger of what the environment did. */
  datatype Session = Session(
    request: PoolRequest,
    trace: seq<Event>,
    issued: nat,     // pool requests `start` left pending
    answered: nat,   // asynchronous pool answers
    acquired: nat,   // connections obtained from the pool
    failures: nat)   // pool failures and connection closes handled

  /** The stream towards the downstream was ended, by a local reply or a reset. */
  predicate Ended(trace: seq<Event>) {
    CountOf(trace, Reply) > 0 || CountOf(trace, Reset) > 0
  }

  /** Structural facts every transition keeps. */
  predicate Consistent(s: Session) {
    && Valid(s.request)
    && (s.request.connData.Some? ==> s.request.base.host.Some?)
  }

  /** The collaborators' side of the contract: when the environment may deliver a stimulus. */
  predicate Deliverable(s: Session, x: Stimulus) {
    var r := s.request;
    && !Ended(s.trace)
    && match x
       case PoolReady(_, _) => r.poolHandle.Some?
       case PoolFailure(reason, host) =>
         && r.poolHandle.Some? && IsConnectionError(reason)
         && (FailureNeedsHost(r.base.metadata.messageType, reason) ==> host.Some?)
       case ConnectionClose(event) =>
         r.connData.Some? && !r.base.responseComplete && (event == RemoteClose || event == LocalClose)
       case ResponseComplete => r.connData.Some? && !r.base.responseComplete
  }

  /** Creates the request and starts it; the filter then returns start's status. The pool only
      fails inline for overflow. */
  function Begin(metadata: Metadata, answer: NewConnection): (s: Session)
    requires answer.FailedInline? ==> answer.reason == Overflow
    ensures Consistent(s)
    ensures s.request.base.metadata.messageType == metadata.messageType
  {
    var st := Start(UpstreamRequest.Create(metadata), answer);
    Session(st.next, st.events + [FilterReturned(st.status)],
            if answer.Pending? then 1 else 0, 0, if answer.ReadyInline? then 1 else 0,
            if answer.FailedInline? then 1 else 0)
  }

  /** Delivers one stimulus. */
  function Deliver(s: Session, x: Stimulus): (s': Session)
    requires Consistent(s) && Deliverable(s, x)
    ensures Consistent(s')
    ensures s'.request.base.metadata.messageType == s.request.base.metadata.messageType
  {
    var r := s.request;
    match x
    case PoolReady(conn, host) =>
      var t := OnPoolReady(r, conn, host);
      s.(request := t.next, trace := s.trace + t.events, answered := s.answered + 1, acquired := s.acquired + 1)
    case PoolFailure(reason, host) =>
      var t := OnPoolFailure(r, reason, host);
      s.(request := t.next, trace := s.trace + t.events, answered := s.answered + 1, failures := s.failures + 1)
    case ConnectionClose(event) =>
      var t := OnConnectionEvent(r, event);
      s.(request := t.next, trace := s.trace + t.events, failures := s.failures + 1)
    case ResponseComplete =>
      var t := OnResponseComplete(r);
      s.(request := t.next, trace := s.trace + t.events)
  }

  /** Each stimulus may be delivered when its turn comes. */
  predicate Admissible(s: Session, xs: seq<Stimulus>)
    decreases |xs|
  {
    Consistent(s) && (|xs| == 0 || (Deliverable(s, xs[0]) && Admissible(Deliver(s, xs[0]), xs[1..])))
  }

  function Run(s: Session, xs: seq<Stimulus>): (s': Session)
    requires Admissible(s, xs)
    ensures Consistent(s')
    ensures s'.request.base.metadata.messageType == s.request.base.metadata.messageType
    decreases |xs|
  {
    if |xs| == 0 then s else Run(Deliver(s, xs[0]), xs[1..])
  }

  /** The owner filter is destroyed and releases its upstream request. */
  function Teardown(s: Session, close: bool): (s': Session)
    requires Consistent(s)
  {
    var t := Release(s.request, close);
    s.(request := t.next, trace := s.trace + [FilterDestroyed] + t.events)
  }

  // -----------------------------------------------------------------------------------------
  // The ledger
  // -----------------------------------------------------------------------------------------

  /** Pool requests awaiting an answer, and connections held. */
  function Awaiting(r: PoolRequest): nat { if r.poolHandle.Some? then 1 else 0 }
  function Held(r: PoolRequest): nat { if r.connData.Some? then 1 else 0 }

  /** The filter contract has been kept so far, and exactly one pause is outstanding while the
      pool request is pending: every other pause was resumed by a pool answer. */
  predicate FilterLedger(s: Session) {
    && Feed(Some(Open(0)), Signals(s.trace)) == Some(Open(Awaiting(s.request)))
    && s.issued == s.answered + Awaiting(s.request) && s.issued <= 1
    && CountOf(s.trace, Resume) == s.answered
  }

  /** Nothing was cancelled yet, and every acquired connection is held or was disposed of. */
  predicate ConnLedger(s: Session) {
    CountOf(s.trace, Cancel) == 0 && s.acquired == CountOf(s.trace, Dispose) + Held(s.request)
  }

  /** At most one failure happened, and it ended the stream: by one reply, or by one reset for a
      one-way request; no reset happened otherwise more than once. */
  predicate FailureLedger(s: Session) {
    var oneway := s.request.base.metadata.messageType == Oneway;
    && s.failures <= 1
    && (s.failures > 0 ==> Ended(s.trace))
    && CountOf(s.trace, Reply) == (if oneway then 0 else s.failures)
    && (oneway ==> CountOf(s.trace, Reset) == s.failures)
    && CountOf(s.trace, Reset) <= 1
  }

  /** What holds of a session between stimuli. */
  predicate Ledger(s: Session) {
    FilterLedger(s) && ConnLedger(s) && FailureLedger(s)
  }

  lemma FilterAdvance(s: Session, s': Session, events: seq<Event>)
    requires FilterLedger(s) && s'.trace == s.trace + events
    requires CountOf(events, Control) == 0
    requires Awaiting(s'.request) + CountOf(events, Resume) == Awaiting(s.request)
    requires s'.answered == s.answered + CountOf(events, Resume) && s'.issued == s.issued
    ensures FilterLedger(s')
  {
    Extend(s.trace, events, Awaiting(s.request));
    CountAppend(s.trace, events, Resume);
  }

  lemma ConnAdvance(s: Session, s': Session, events: seq<Event>)
    requires ConnLedger(s) && s'.trace == s.trace + events
    requires CountOf(events, Cancel) == 0
    requires s'.acquired + Held(s.request) == s.acquired + CountOf(events, Dispose) + Held(s'.request)
    ensures ConnLedger(s')
  {
    CountAppend(s.trace, events, Cancel);
    CountAppend(s.trace, events, Dispose);
  }

  lemma FailureAdvance(s: Session, s': Session, events: seq<Event>, failed: bool)
    requires FailureLedger(s) && !Ended(s.trace) && s'.trace == s.trace + events
    requires s'.request.base.metadata.messageType == s.request.base.metadata.messageType
    requires s'.failures == s.failures + (if failed then 1 else 0)
    requires var oneway := s.request.base.metadata.messageType == Oneway;
      && CountOf(events, Reply) == (if failed && !oneway then 1 else 0)
      && (oneway ==> CountOf(events, Reset) == (if failed then 1 else 0))
    requires CountOf(events, Reset) <= 1
    requires failed ==> Ended(events)
    ensures FailureLedger(s')
  {
    CountAppend(s.trace, events, Reply);
    CountAppend(s.trace, events, Reset);
  }

  /** What `start` itself emits: no resume (nothing was paused yet), no cancellation, one
      connection accounted for if the pool answered inline, and the failure's reply or reset if
      it failed inline. */
  predicate StartFacts(metadata: Metadata, answer: NewConnection, st: Started) {
    var failed := answer.FailedInline?;
    var oneway := metadata.messageType == Oneway;
    && CountOf(st.events, Resume) == 0 && CountOf(st.events, Control) == 0
    && CountOf(st.events, Cancel) == 0
    && CountOf(st.events, Dispose) + Held(st.next) == (if answer.ReadyInline? then 1 else 0)
    && CountOf(st.events, Reply) == (if failed && !oneway then 1 else 0)
    && (oneway ==> CountOf(st.events, Reset) == (if failed then 1 else 0))
    && CountOf(st.events, Reset) <= 1
    && (failed ==> Ended(st.events))
  }

  lemma StartEvents(metadata: Metadata, answer: NewConnection)
    requires answer.FailedInline? ==> answer.reason == Overflow
    ensures StartFacts(metadata, answer, Start(UpstreamRequest.Create(metadata), answer))
  {
    match answer
    case Pending(_) =>
      SingleEvent(ResetStream);
    case ReadyInline(conn, host) =>
      StartReadyEvents(metadata, conn, host);
    case FailedInline(reason, host) =>
      StartFailedEvents(metadata, host);
  }

  lemma StartReadyEvents(metadata: Metadata, conn: Conn, host: Host)
    ensures StartFacts(metadata, ReadyInline(conn, host), Start(UpstreamRequest.Create(metadata), ReadyInline(conn, host)))
  {
    var r := UpstreamRequest.Create(metadata);
    ReadyFilterCounts(r, conn, host);
    ReadyConnCounts(r, conn, host);
    ReadyEndCounts(r, conn, host);
  }

  lemma StartFailedEvents(metadata: Metadata, host: Option<Host>)
    ensures StartFacts(metadata, FailedInline(Overflow, host), Start(UpstreamRequest.Create(metadata), FailedInline(Overflow, host)))
  {
    var r := UpstreamRequest.Create(metadata);
    var t := OnPoolFailure(r, Overflow, host);
    assert Start(r, FailedInline(Overflow, host)) == Started(t.next, t.events, ContinueIteration);
    FailureFilterCounts(r, Overflow, host);
    FailureConnCounts(r, Overflow, host);
    FailureEndCounts(r, Overflow, host);
    assert CountOf(t.events, Reset) == 1;
    assert CountOf(t.events, Reply) == (if metadata.messageType == Oneway then 0 else 1);
  }

  /** Before `start`, the filter has set its callbacks and nothing else happened. */
  function Fresh(metadata: Metadata): (s: Session)
    ensures Ledger(s) && !Ended(s.trace)
  {
    Session(UpstreamRequest.Create(metadata), [], 0, 0, 0, 0)
  }

  /** The filter returns start's status after start's own events: it pauses exactly when the
      pool request is left pending. */
  lemma StartedFilter(st: Started)
    requires CountOf(st.events, Resume) == 0 && CountOf(st.events, Control) == 0
    requires st.status == PauseIteration <==> st.next.poolHandle.Some?
    requires st.status != PauseIteration ==> st.status == ContinueIteration
    ensures Feed(Some(Open(0)), Signals(st.events + [FilterReturned(st.status)])) == Some(Open(Awaiting(st.next)))
    ensures CountOf(st.events + [FilterReturned(st.status)], Resume) == 0
  {
    Opens(st.events, st.status);
    SingleEvent(FilterReturned(st.status));
    CountAppend(st.events, [FilterReturned(st.status)], Resume);
  }

  lemma BeginFilter(metadata: Metadata, answer: NewConnection)
    requires answer.FailedInline? ==> answer.reason == Overflow
    ensures FilterLedger(Begin(metadata, answer))
  {
    var st := Start(UpstreamRequest.Create(metadata), answer);
    StartEvents(metadata, answer);
    StartedFilter(st);
  }

  /** The ledger of connections and failures right after start, from what start emitted. */
  lemma OpenedLedger(metadata: Metadata, answer: NewConnection, st: Started, s: Session)
    requires StartFacts(metadata, answer, st)
    requires st.next.base.metadata.messageType == metadata.messageType
    requires s.request == st.next && s.trace == st.events + [FilterReturned(st.status)]
    requires s.acquired == (if answer.ReadyInline? then 1 else 0)
    requires s.failures == (if answer.FailedInline? then 1 else 0)
    ensures ConnLedger(s) && FailureLedger(s)
  {
    SingleEvent(FilterReturned(st.status));
    CountAppend(st.events, [FilterReturned(st.status)], Cancel);
    CountAppend(st.events, [FilterReturned(st.status)], Dispose);
    CountAppend(st.events, [FilterReturned(st.status)], Reply);
    CountAppend(st.events, [FilterReturned(st.status)], Reset);
  }

  lemma BeginLedger(metadata: Metadata, answer: NewConnection)
    requires answer.FailedInline? ==> answer.reason == Overflow
    ensures Ledger(Begin(metadata, answer))
  {
    var st := Start(UpstreamRequest.Create(metadata), answer);
    StartEvents(metadata, answer);
    BeginFilter(metadata, answer);
    OpenedLedger(metadata, answer, st, Begin(metadata, answer));
  }

  /** A ready pool's events, as the filter ledger reads them. */
  lemma ReadyFilterCounts(r: PoolRequest, conn: Conn, host: Host)
    requires r.connData.None?
    ensures var t := OnPoolReady(r, conn, host);
      CountOf(t.events, Control) == 0 && CountOf(t.events, Resume) == Awaiting(r)
  {
    OnPoolReadyCount(r, conn, host, Control);
    OnPoolReadyCount(r, conn, host, Resume);
  }

  /** A ready pool's events, as the connection ledger reads them: nothing is cancelled, and the
      new connection is either kept or disposed of. */
  lemma ReadyConnCounts(r: PoolRequest, conn: Conn, host: Host)
    requires r.connData.None?
    ensures var t := OnPoolReady(r, conn, host);
      CountOf(t.events, Cancel) == 0 && CountOf(t.events, Dispose) + Held(t.next) == 1
  {
    OnPoolReadyCount(r, conn, host, Cancel);
    OnPoolReadyCount(r, conn, host, Dispose);
  }

  /** A ready pool's events, as the failure ledger reads them. */
  lemma ReadyEndCounts(r: PoolRequest, conn: Conn, host: Host)
    requires r.connData.None?
    ensures var t := OnPoolReady(r, conn, host);
      && CountOf(t.events, Reply) == 0
      && CountOf(t.events, Reset) == (if r.base.metadata.messageType == StreamInit then 1 else 0)
  {
    OnPoolReadyCount(r, conn, host, Reply);
    OnPoolReadyCount(r, conn, host, Reset);
  }

  /** A pool failure's events, as the filter ledger reads them. */
  lemma FailureFilterCounts(r: PoolRequest, reason: PoolFailureReason, host: Option<Host>)
    requires r.connData.None?
    requires FailureNeedsHost(r.base.metadata.messageType, reason) ==> host.Some?
    ensures var events := OnPoolFailure(r, reason, host).events;
      && CountOf(events, Control) == 0
      && CountOf(events, Resume) == (if IsConnectionError(reason) then 1 else 0)
  {
    OnPoolFailureCount(r, reason, host, Control);
    OnPoolFailureCount(r, reason, host, Resume);
  }

  /** A pool failure's events, as the connection ledger reads them. */
  lemma FailureConnCounts(r: PoolRequest, reason: PoolFailureReason, host: Option<Host>)
    requires r.connData.None?
    requires FailureNeedsHost(r.base.metadata.messageType, reason) ==> host.Some?
    ensures var events := OnPoolFailure(r, reason, host).events;
      CountOf(events, Cancel) == 0 && CountOf(events, Dispose) == 0
  {
    OnPoolFailureCount(r, reason, host, Cancel);
    OnPoolFailureCount(r, reason, host, Dispose);
  }

  /** A pool failure's events, as the failure ledger reads them. */
  lemma FailureEndCounts(r: PoolRequest, reason: PoolFailureReason, host: Option<Host>)
    requires r.connData.None?
    requires FailureNeedsHost(r.base.metadata.messageType, reason) ==> host.Some?
    ensures var events := OnPoolFailure(r, reason, host).events;
      var oneway := r.base.metadata.messageType == Oneway;
      && CountOf(events, Reply) == (if oneway then 0 else 1)
      && CountOf(events, Reset) == (if !oneway && r.base.responseComplete then 0 else 1)
  {
    OnPoolFailureCount(r, reason, host, Reply);
    OnPoolFailureCount(r, reason, host, Reset);
  }

  lemma ReadyFilter(s: Session, conn: Conn, host: Host)
    requires Consistent(s) && Deliverable(s, PoolReady(conn, host)) && FilterLedger(s)
    ensures FilterLedger(Deliver(s, PoolReady(conn, host)))
  {
    var t := OnPoolReady(s.request, conn, host);
    var s' := Deliver(s, PoolReady(conn, host));
    ReadyFilterCounts(s.request, conn, host);
    FilterAdvance(s, s', t.events);
  }

  lemma ReadyConn(s: Session, conn: Conn, host: Host)
    requires Consistent(s) && Deliverable(s, PoolReady(conn, host)) && ConnLedger(s)
    ensures ConnLedger(Deliver(s, PoolReady(conn, host)))
  {
    var t := OnPoolReady(s.request, conn, host);
    ReadyConnCounts(s.request, conn, host);
    ConnAdvance(s, Deliver(s, PoolReady(conn, host)), t.events);
  }

  lemma ReadyFailure(s: Session, conn: Conn, host: Host)
    requires Consistent(s) && Deliverable(s, PoolReady(conn, host)) && FailureLedger(s)
    ensures FailureLedger(Deliver(s, PoolReady(conn, host)))
  {
    var t := OnPoolReady(s.request, conn, host);
    var s' := Deliver(s, PoolReady(conn, host));
    ReadyEndCounts(s.request, conn, host);
    FailureAdvance(s, s', t.events, false);
  }

  lemma ReadyKeeps(s: Session, conn: Conn, host: Host)
    requires Consistent(s) && Deliverable(s, PoolReady(conn, host)) && Ledger(s)
    ensures Ledger(Deliver(s, PoolReady(conn, host)))
  {
    ReadyFilter(s, conn, host);
    ReadyConn(s, conn, host);
    ReadyFailure(s, conn, host);
  }

  lemma FailureFilter(s: Session, reason: PoolFailureReason, host: Option<Host>)
    requires Consistent(s) && Deliverable(s, PoolFailure(reason, host)) && FilterLedger(s)
    ensures FilterLedger(Deliver(s, PoolFailure(reason, host)))
  {
    var t := OnPoolFailure(s.request, reason, host);
    var s' := Deliver(s, PoolFailure(reason, host));
    FailureFilterCounts(s.request, reason, host);
    FilterAdvance(s, s', t.events);
  }

  lemma FailureConn(s: Session, reason: PoolFailureReason, host: Option<Host>)
    requires Consistent(s) && Deliverable(s, PoolFailure(reason, host)) && ConnLedger(s)
    ensures ConnLedger(Deliver(s, PoolFailure(reason, host)))
  {
    var t := OnPoolFailure(s.request, reason, host);
    var s' := Deliver(s, PoolFailure(reason, host));
    FailureConnCounts(s.request, reason, host);
    ConnAdvance(s, s', t.events);
  }

  lemma FailureFailure(s: Session, reason: PoolFailureReason, host: Option<Host>)
    requires Consistent(s) && Deliverable(s, PoolFailure(reason, host)) && FailureLedger(s)
    ensures FailureLedger(Deliver(s, PoolFailure(reason, host)))
  {
    var t := OnPoolFailure(s.request, reason, host);
    var s' := Deliver(s, PoolFailure(reason, host));
    FailureEndCounts(s.request, reason, host);
    FailureAdvance(s, s', t.events, true);
  }

  lemma FailureKeeps(s: Session, reason: PoolFailureReason, host: Option<Host>)
    requires Consistent(s) && Deliverable(s, PoolFailure(reason, host)) && Ledger(s)
    ensures Ledger(Deliver(s, PoolFailure(reason, host)))
  {
    FailureFilter(s, reason, host);
    FailureConn(s, reason, host);
    FailureFailure(s, reason, host);
  }

  lemma CloseFilter(s: Session, event: ConnectionEvent)
    requires Consistent(s) && Deliverable(s, ConnectionClose(event)) && FilterLedger(s)
    ensures FilterLedger(Deliver(s, ConnectionClose(event)))
  {
    var t := OnConnectionEvent(s.request, event);
    var s' := Deliver(s, ConnectionClose(event));
    ConnectionEventOutcome(s.request.base, event);
    FilterAdvance(s, s', t.events);
  }

  lemma CloseConn(s: Session, event: ConnectionEvent)
    requires Consistent(s) && Deliverable(s, ConnectionClose(event)) && ConnLedger(s)
    ensures ConnLedger(Deliver(s, ConnectionClose(event)))
  {
    var t := OnConnectionEvent(s.request, event);
    var s' := Deliver(s, ConnectionClose(event));
    ConnectionEventOutcome(s.request.base, event);
    ConnAdvance(s, s', t.events);
  }

  lemma CloseFailure(s: Session, event: ConnectionEvent)
    requires Consistent(s) && Deliverable(s, ConnectionClose(event)) && FailureLedger(s)
    ensures FailureLedger(Deliver(s, ConnectionClose(event)))
  {
    var t := OnConnectionEvent(s.request, event);
    var s' := Deliver(s, ConnectionClose(event));
    ConnectionEventOutcome(s.request.base, event);
    FailureAdvance(s, s', t.events, true);
  }

  lemma CloseKeeps(s: Session, event: ConnectionEvent)
    requires Consistent(s) && Deliverable(s, ConnectionClose(event)) && Ledger(s)
    ensures Ledger(Deliver(s, ConnectionClose(event)))
  {
    CloseFilter(s, event);
    CloseConn(s, event);
    CloseFailure(s, event);
  }

  lemma CompleteFilter(s: Session)
    requires Consistent(s) && Deliverable(s, ResponseComplete) && FilterLedger(s)
    ensures FilterLedger(Deliver(s, ResponseComplete))
  {
    var t := OnResponseComplete(s.request);
    var s' := Deliver(s, ResponseComplete);
    ResponseCompleteOutcome(s.request);
    FilterAdvance(s, s', t.events);
  }

  lemma CompleteConn(s: Session)
    requires Consistent(s) && Deliverable(s, ResponseComplete) && ConnLedger(s)
    ensures ConnLedger(Deliver(s, ResponseComplete))
  {
    var t := OnResponseComplete(s.request);
    var s' := Deliver(s, ResponseComplete);
    ResponseCompleteOutcome(s.request);
    ConnAdvance(s, s', t.events);
  }

  lemma CompleteFailure(s: Session)
    requires Consistent(s) && Deliverable(s, ResponseComplete) && FailureLedger(s)
    ensures FailureLedger(Deliver(s, ResponseComplete))
  {
    var t := OnResponseComplete(s.request);
    var s' := Deliver(s, ResponseComplete);
    ResponseCompleteOutcome(s.request);
    FailureAdvance(s, s', t.events, false);
  }

  lemma CompleteKeeps(s: Session)
    requires Consistent(s) && Deliverable(s, ResponseComplete) && Ledger(s)
    ensures Ledger(Deliver(s, ResponseComplete))
  {
    CompleteFilter(s);
    CompleteConn(s);
    CompleteFailure(s);
  }

  lemma DeliverKeeps(s: Session, x: Stimulus)
    requires Consistent(s) && Deliverable(s, x) && Ledger(s)
    ensures Ledger(Deliver(s, x))
  {
    match x
    case PoolReady(conn, host) => ReadyKeeps(s, conn, host);
    case PoolFailure(reason, host) => FailureKeeps(s, reason, host);
    case ConnectionClose(event) => CloseKeeps(s, event);
    case ResponseComplete => CompleteKeeps(s);
  }

  lemma {:induction false} RunKeeps(s: Session, xs: seq<Stimulus>)
    requires Admissible(s, xs) && Ledger(s)
    ensures Ledger(Run(s, xs))
    decreases |xs|
  {
    if |xs| > 0 {
      DeliverKeeps(s, xs[0]);
      RunKeeps(Deliver(s, xs[0]), xs[1..]);
    }
  }

  /** Releasing calls nothing on the owner, so the destroyed filter stays silent; it cancels the
      pending pool request and disposes of the held connection. */
  lemma TeardownFilter(s: Session, close: bool)
    requires Consistent(s) && FilterLedger(s)
    ensures Feed(Some(Open(0)), Signals(Teardown(s, close).trace)).Some?
  {
    var t := Release(s.request, close);
    ReleaseOutcome(s.request, close);
    SilentEvents(t.events);
    DestroyQuietly(s.trace, t.events, Awaiting(s.request));
  }

  lemma TeardownCounts(s: Session, close: bool)
    requires Consistent(s)
    ensures var f := Teardown(s, close);
      && CountOf(f.trace, Cancel) == CountOf(s.trace, Cancel) + Awaiting(s.request)
      && CountOf(f.trace, Dispose) == CountOf(s.trace, Dispose) + Held(s.request)
      && CountOf(f.trace, Resume) == CountOf(s.trace, Resume)
      && CountOf(f.trace, Reply) == CountOf(s.trace, Reply)
      && CountOf(f.trace, Reset) == CountOf(s.trace, Reset)
  {
    var t := Release(s.request, close);
    ReleaseOutcome(s.request, close);
    ClosingCount(s.trace, t.events, Cancel);
    ClosingCount(s.trace, t.events, Dispose);
    ClosingCount(s.trace, t.events, Resume);
    ClosingCount(s.trace, t.events, Reply);
    ClosingCount(s.trace, t.events, Reset);
  }

  /** What holds once the request was torn down. */
  predicate Settled(f: Session, oneway: bool) {
    && Feed(Some(Open(0)), Signals(f.trace)).Some?
    && CountOf(f.trace, Resume) <= 1
    && f.failures <= 1
    && CountOf(f.trace, Reply) == (if oneway then 0 else f.failures)
    && (oneway ==> CountOf(f.trace, Reset) == f.failures)
    && CountOf(f.trace, Reset) <= 1
    && f.issued == f.answered + CountOf(f.trace, Cancel)
    && f.acquired == CountOf(f.trace, Dispose)
    && f.request.poolHandle.None? && f.request.connData.None? && f.request.base.streamReset
  }

  lemma TeardownSettles(s: Session, close: bool)
    requires Consistent(s) && Ledger(s)
    ensures Settled(Teardown(s, close), s.request.base.metadata.messageType == Oneway)
  {
    TeardownFilter(s, close);
    TeardownCounts(s, close);
    ReleaseOutcome(s.request, close);
  }

  // -----------------------------------------------------------------------------------------
  // The whole request
  // -----------------------------------------------------------------------------------------

  /** Over the life of a request, whatever the pool and the connection do within their contract:
      - the filter keeps its callback contract: decoding resumes only after a pause, and nothing
        reaches the owner after it was destroyed;
      - decoding is resumed at most once;
      - at most one failure happens, and it is answered by exactly one local reply, or, for a
        one-way request, by exactly one reset; without a failure there is no reply;
      - every pool request `start` left pending is answered or cancelled, exactly once;
      - every connection obtained from the pool is given back to the pool or handed to the
        owner, exactly once, and in the end the request holds nothing. Whether it is closed
        before it goes back is `UpstreamRequest.ReleaseCalls`'s business, not counted here. */
  lemma RequestLifecycle(metadata: Metadata, answer: NewConnection, xs: seq<Stimulus>, close: bool)
    requires answer.FailedInline? ==> answer.reason == Overflow
    requires Admissible(Begin(metadata, answer), xs)
    ensures var f := Teardown(Run(Begin(metadata, answer), xs), close);
      var oneway := metadata.messageType == Oneway;
      && WellBehaved(Contract(f.trace))
      && CountOf(f.trace, Resume) <= 1
      && f.failures <= 1
      && CountOf(f.trace, Reply) == (if oneway then 0 else f.failures)
      && (oneway ==> CountOf(f.trace, Reset) == f.failures)
      && CountOf(f.trace, Reset) <= 1
      && f.issued == f.answered + CountOf(f.trace, Cancel)
      && f.acquired == CountOf(f.trace, Dispose)
      && f.request.poolHandle.None? && f.request.connData.None? && f.request.base.streamReset
  {
    var s0 := Begin(metadata, answer);
    BeginLedger(metadata, answer);
    RunKeeps(s0, xs);
    var s := Run(s0, xs);
    TeardownSettles(s, close);
    ContractFeed(Teardown(s, close).trace);
    AcceptsIffWellBehaved(Contract(Teardown(s, close).trace));
  }

  /** Why asynchronous pool failures must be connection errors and inline ones must not: a
      connection error reported inline resumes decoding although `start` never paused, which the
      filter contract forbids. */
  lemma InlineConnectionErrorBreaksContract(metadata: Metadata, reason: PoolFailureReason, host: Host)
    requires IsConnectionError(reason)
    ensures var st := Start(UpstreamRequest.Create(metadata), FailedInline(reason, Some(host)));
      !Accepts(Contract(st.events))
  {
    var r := UpstreamRequest.Create(metadata);
    var st := Start(r, FailedInline(reason, Some(host)));
    FailureFilterCounts(r, reason, Some(host));
    ContractFeed(st.events);
    FeedExcessResume(Open(0), st.events);
  }
}

=== FILE: local_ratelimit.dfy ===
/**
  The local rate limiter's descriptors. A descriptor is an ordered list of key/value entries;
  its token bucket is found by the entry list alone, so the limiter keeps at most one bucket per
  entry list. `toString` renders a descriptor for messages.
 */
module LocalRateLimit {
  import opened Common

  /** One key/value pair of a descriptor. */
  datatype DescriptorEntry = DescriptorEntry(key: string, value: string)

  /** A descriptor: its entries, in order. */
  datatype LocalDescriptor = LocalDescriptor(entries: seq<DescriptorEntry>)

  // ---------------------------------------------------------------------------------------------
  // Rendering
  // ---------------------------------------------------------------------------------------------

  const Separator: string := ", "

  /** One entry rendered as `key=value`. */
  function Render(e: DescriptorEntry): string {
    e.key + "=" + e.value
  }

  /** Every entry rendered, in order. */
  function Renders(entries: seq<DescriptorEntry>): (parts: seq<string>)
    ensures |parts| == |entries|
  {
    if entries == [] then [] else [Render(entries[0])] + Renders(entries[1..])
  }

  /** The parts joined with `sep` between consecutive parts, and nowhere else. */
  function Join(parts: seq<string>, sep: string): string {
    if |parts| == 0 then ""
    else if |parts| == 1 then parts[0]
    else parts[0] + sep + Join(parts[1..], sep)
  }

  /** The rendered descriptor: its entries as `key=value`, joined with `", "`. */
  function ToString(d: LocalDescriptor): (s: string)
    ensures d.entries == [] ==> s == ""
    ensures |d.entries| == 1 ==> s == Render(d.entries[0])
  {
    var parts := Renders(d.entries);
    assert |d.entries| == 1 ==> parts == [Render(d.entries[0])] by {
      if |d.entries| == 1 {
        assert d.entries[1..] == [];
      }
    }
    Join(parts, Separator)
  }

  lemma {:induction false} RendersAppend(a: seq<DescriptorEntry>, b: seq<DescriptorEntry>)
    ensures Renders(a + b) == Renders(a) + Renders(b)
  {
    if a == [] {
      assert a + b == b;
    } else {
      assert (a + b)[1..] == a[1..] + b;
      RendersAppend(a[1..], b);
    }
  }

  /** Joining one more part adds a separator before it, unless nothing came before. */
  lemma {:induction false} JoinSnoc(parts: seq<string>, x: string, sep: string)
    ensures Join(parts + [x], sep) == if parts == [] then x else Join(parts, sep) + sep + x
  {
    if |parts| >= 2 {
      assert (parts + [x])[1..] == parts[1..] + [x];
      JoinSnoc(parts[1..], x, sep);
    } else if |parts| == 1 {
      assert (parts + [x])[1..] == [x];
    }
  }

  /** The rendering as the loop builds it: render each entry into a vector of strings, then join
      the vector, a separator before every part but the first. */
  method ToStringLoop(d: LocalDescriptor) returns (s: string)
    ensures s == ToString(d)
  {
    var parts: seq<string> := [];
    var i := 0;
    while i < |d.entries|
      invariant 0 <= i <= |d.entries|
      invariant parts == Renders(d.entries[..i])
    {
      RendersAppend(d.entries[..i], [d.entries[i]]);
      assert d.entries[..i + 1] == d.entries[..i] + [d.entries[i]];
      parts := parts + [Render(d.entries[i])];
      i := i + 1;
    }
    assert d.entries[..i] == d.entries;
    s := "";
    var j := 0;
    while j < |parts|
      invariant 0 <= j <= |parts|
      invariant s == Join(parts[..j], Separator)
    {
      JoinSnoc(parts[..j], parts[j], Separator);
      assert parts[..j + 1] == parts[..j] + [parts[j]];
      if j > 0 {
        s := s + Separator;
      }
      s := s + parts[j];
      j := j + 1;
    }
    assert parts[..j] == parts;
  }

  // ---------------------------------------------------------------------------------------------
  // Reading a rendering back
  // ---------------------------------------------------------------------------------------------

  /** The index of the first `c` in `s`, or `|s|` when there is none. */
  function FirstIndex(s: string, c: char): (i: nat)
    ensures i <= |s|
    ensures c !in s[..i]
    ensures i < |s| ==> s[i] == c
  {
    if s == [] then 0
    else if s[0] == c then 0
    else
      var j := FirstIndex(s[1..], c);
      assert s[..j + 1] == [s[0]] + s[1..][..j];
      assert j + 1 < |s| ==> s[j + 1] == s[1..][j];
      j + 1
  }

  lemma {:induction false} FirstIndexAfter(a: string, b: string, c: char)
    requires c !in a
    ensures FirstIndex(a + b, c) == |a| + FirstIndex(b, c)
  {
    if a == [] {
      assert a + b == b;
    } else {
      assert (a + b)[0] == a[0];
      assert (a + b)[1..] == a[1..] + b;
      FirstIndexAfter(a[1..], b, c);
    }
  }

  /** Splits `key=value` at the first `=`. */
  function ParseEntry(s: string): DescriptorEntry {
    var i := FirstIndex(s, '=');
    DescriptorEntry(s[..i], if i < |s| then s[i + 1..] else "")
  }

  /** Splits at each `,`, dropping the space that follows it, and parses each piece. */
  function ParseParts(s: string): seq<DescriptorEntry>
    decreases |s|
  {
    var i := FirstIndex(s, ',');
    if i == |s| then [ParseEntry(s)]
    else [ParseEntry(s[..i])] + ParseParts(if i + 2 <= |s| then s[i + 2..] else "")
  }

  /** Reads a rendered entry list back; the empty rendering is the empty list. */
  function Parse(s: string): seq<DescriptorEntry> {
    if s == "" then [] else ParseParts(s)
  }

  /** An entry whose rendering can be read back: no `,` anywhere and no `=` in the key. */
  predicate Plain(e: DescriptorEntry) {
    ',' !in e.key && '=' !in e.key && ',' !in e.value
  }

  lemma ParseRender(e: DescriptorEntry)
    requires Plain(e)
    ensures ParseEntry(Render(e)) == e
    ensures ',' !in Render(e)
  {
    FirstIndexAfter(e.key, "=" + e.value, '=');
    assert e.key + "=" + e.value == e.key + ("=" + e.value);
  }

  /** A non-empty entry list renders to a non-empty string. */
  lemma ToStringNonEmpty(d: LocalDescriptor)
    requires d.entries != []
    ensures ToString(d) != ""
  {
    if |d.entries| >= 2 {
      assert Renders(d.entries)[0] == Render(d.entries[0]);
      assert |Join(Renders(d.entries), Separator)| >= |Render(d.entries[0])|;
    }
  }

  /** The rendering of a list of two or more entries: the first entry, a separator, the rest. */
  lemma ToStringCons(d: LocalDescriptor)
    requires |d.entries| >= 2
    ensures ToString(d) == Render(d.entries[0]) + Separator + ToString(LocalDescriptor(d.entries[1..]))
  {
    assert Renders(d.entries)[1..] == Renders(d.entries[1..]);
  }

  /** Reading back a plain entry followed by a separator and more text. */
  lemma ParseCons(e: DescriptorEntry, tail: string)
    requires Plain(e) && tail != ""
    ensures Parse(Render(e) + Separator + tail) == [e] + Parse(tail)
  {
    ParseRender(e);
    var s := Render(e) + Separator + tail;
    assert s == Render(e) + (Separator + tail);
    FirstIndexAfter(Render(e), Separator + tail, ',');
    var i := |Render(e)|;
    assert s[..i] == Render(e);
    assert s[i + 2..] == tail;
  }

  /** Reading back a rendering of plain entries gives the entries, in order: the rendering loses
      nothing, and in particular keeps the order of the entries. */
  lemma {:induction false} ParseToString(d: LocalDescriptor)
    requires forall i :: 0 <= i < |d.entries| ==> Plain(d.entries[i])
    ensures Parse(ToString(d)) == d.entries
    decreases |d.entries|
  {
    if |d.entries| == 1 {
      var e := d.entries[0];
      ParseRender(e);
      FirstIndexAfter(Render(e), "", ',');
      assert Render(e) + "" == Render(e);
    } else if |d.entries| >= 2 {
      var rest := LocalDescriptor(d.entries[1..]);
      ToStringCons(d);
      ToStringNonEmpty(rest);
      ParseToString(rest);
      ParseCons(d.entries[0], ToString(rest));
      assert d.entries == [d.entries[0]] + rest.entries;
    }
  }

  /** The rendering alone does not identify a descriptor once an entry holds a `,`: two different
      entry lists render alike, which is why buckets are found by the entries themselves. */
  lemma RenderingIsNotAKey()
    ensures exists d1: LocalDescriptor, d2: LocalDescriptor :: d1 != d2 && ToString(d1) == ToString(d2)
  {
    var d1 := LocalDescriptor([DescriptorEntry("a", "b, c=d")]);
    var d2 := LocalDescriptor([DescriptorEntry("a", "b"), DescriptorEntry("c", "d")]);
    assert |d1.entries| != |d2.entries|;
    assert ToString(d2) == "a=b" + ", " + "c=d";
    assert ToString(d1) == ToString(d2);
  }

  // ---------------------------------------------------------------------------------------------
  // Equality, hashing and the descriptor set
  // ---------------------------------------------------------------------------------------------

  /** Descriptors are the same key when their entry lists are. */
  predicate Equal(a: LocalDescriptor, b: LocalDescriptor) {
    a.entries == b.entries
  }

  /** Equality is entry by entry, in order: same length and the same entry at every position. */
  lemma EqualIffPointwise(a: LocalDescriptor, b: LocalDescriptor)
    ensures Equal(a, b) <==>
      |a.entries| == |b.entries| && forall i :: 0 <= i < |a.entries| ==> a.entries[i] == b.entries[i]
  {
  }

  /** The same two entries in the other order are a different descriptor. */
  lemma OrderMatters(x: DescriptorEntry, y: DescriptorEntry)
    requires x != y
    ensures !Equal(LocalDescriptor([x, y]), LocalDescriptor([y, x]))
  {
    assert LocalDescriptor([x, y]).entries[0] != LocalDescriptor([y, x]).entries[0];
  }

  /** The hash of a descriptor: any hash of its entry list. */
  function Hash(d: LocalDescriptor, hashEntries: seq<DescriptorEntry> -> nat): nat {
    hashEntries(d.entries)
  }

  /** Equal descriptors hash alike, whatever the hash of entry lists. */
  lemma EqualHashAlike(a: LocalDescriptor, b: LocalDescriptor, hashEntries: seq<DescriptorEntry> -> nat)
    requires Equal(a, b)
    ensures Hash(a, hashEntries) == Hash(b, hashEntries)
  {
  }

  /** A descriptor with its token bucket: the maximum, the refill and the tokens left. */
  datatype Bucket = Bucket(descriptor: LocalDescriptor, maxTokens: nat, tokensPerFill: nat, tokens: nat)

  /** No two buckets of the set are for equal descriptors. */
  predicate Unique(buckets: seq<Bucket>) {
    forall i, j :: 0 <= i < j < |buckets| ==> !Equal(buckets[i].descriptor, buckets[j].descriptor)
  }

  /** The position of the bucket for `d`, if there is one. */
  method Find(buckets: seq<Bucket>, d: LocalDescriptor) returns (at: Option<nat>)
    ensures at.Some? ==> at.value < |buckets| && Equal(buckets[at.value].descriptor, d)
    ensures at.None? <==> forall i :: 0 <= i < |buckets| ==> !Equal(buckets[i].descriptor, d)
  {
    var i := 0;
    while i < |buckets|
      invariant 0 <= i <= |buckets|
      invariant forall k :: 0 <= k < i ==> !Equal(buckets[k].descriptor, d)
    {
      if Equal(buckets[i].descriptor, d) {
        return Some(i);
      }
      i := i + 1;
    }
    return None;
  }

  /** Inserting a bucket: a set that already holds a bucket for an equal descriptor is left as
      it is and reports that nothing was inserted; otherwise the bucket is added. */
  method Insert(buckets: seq<Bucket>, b: Bucket) returns (next: seq<Bucket>, inserted: bool)
    requires Unique(buckets)
    ensures Unique(next)
    ensures inserted <==> forall i :: 0 <= i < |buckets| ==> !Equal(buckets[i].descriptor, b.descriptor)
    ensures next == if inserted then buckets + [b] else buckets
    ensures exists i :: 0 <= i < |next| && Equal(next[i].descriptor, b.descriptor)
  {
    var at := Find(buckets, b.descriptor);
    if at.Some? {
      next, inserted := buckets, false;
    } else {
      next, inserted := buckets + [b], true;
      assert next[|buckets|] == b;
    }
  }
}

=== FILE: meta_protocol.dfy ===
/**
  The protocol-agnostic message and error vocabulary shared by the router, the upstream
  request and the filters. Collaborators the core only consults (hosts, connections) are
  opaque values carrying the one attribute the core reads from them.
 */
module MetaProtocol {

  /** The kind of a decoded message; fixed once the message is decoded. */
  datatype MessageType = Request | Response | Oneway | StreamInit | Exception

  /** Keys of the metadata's string mapping. `RealServerAddress` is the reserved key under which
      the upstream address is stored for the response path. */
  datatype HeaderKey = RealServerAddress | Named(name: string)

  /** Metadata: the message type, its string attributes, and the length of the original,
      undecoded message bytes it still owns. */
  datatype Metadata = Metadata(messageType: MessageType, headers: map<HeaderKey, string>, originLength: nat)

  /** Error types carried by locally generated exceptions. */
  datatype ErrorType = Unspecified | ClusterNotFound | NoHealthyUpstream

  /** A protocol-level exception sent back as a direct response. */
  datatype AppException = AppException(errorType: ErrorType, message: string)

  /** Why the connection pool could not provide a connection. */
  datatype PoolFailureReason = Overflow | LocalConnectionFailure | RemoteConnectionFailure | Timeout

  /** Connection events raised on an upstream connection. */
  datatype ConnectionEvent = RemoteClose | LocalClose | Connected | ConnectedZeroRtt

  /** Results reported to a host's outlier detector. */
  datatype OutlierResult = LocalOriginConnectSuccess | LocalOriginConnectFailed | LocalOriginTimeout

  /** An upstream host, known by its address. */
  datatype Host = Host(address: string)

  /** A pooled upstream connection: an identity and the remote address it is connected to. */
  datatype Conn = Conn(id: nat, remoteAddress: string)

  /** Timeout, local and remote connection failures are the connection errors; the pool reports
      them asynchronously, while an overflow is reported synchronously from `newConnection`. */
  predicate IsConnectionError(reason: PoolFailureReason) {
    reason == Timeout || reason == LocalConnectionFailure || reason == RemoteConnectionFailure
  }
}

=== FILE: route_entry.dfy ===
/**
  Route entries. A configured route is the parent entry; each of its weighted clusters is an entry
  of its own that overrides the cluster name and, when configured with them, the metadata match
  criteria, and hands every other question to its parent.
 */
module RouteEntry {
  import opened Common

  /** Opaque configuration values the entries hand out; the core never looks inside them. */
  datatype MatchCriteria = MatchCriteria(id: nat)
  datatype HashPolicy = HashPolicy(id: nat)
  datatype MirrorPolicy = MirrorPolicy(clusterName: string, runtimeKey: string)

  /** A header to set on a request or a response: the key and value it was constructed with. */
  datatype MutationEntry = MutationEntry(key: string, value: string)

  /** One weighted cluster of a route: its own cluster name, weight and optional criteria. */
  datatype WeightedCluster = WeightedCluster(clusterName: string, weight: nat, criteria: Option<MatchCriteria>)

  /** A configured route: the fields the parent entry answers from. */
  datatype RouteConfig = RouteConfig(
    routeName: string,
    clusterName: string,
    criteria: Option<MatchCriteria>,
    requestMutation: seq<MutationEntry>,
    responseMutation: seq<MutationEntry>,
    hashPolicy: Option<HashPolicy>,
    mirrorPolicies: seq<MirrorPolicy>,
    weightedClusters: seq<WeightedCluster>)

  /** A route entry: either the route itself, or one of its weighted clusters, which keeps a
      reference to its parent route. */
  datatype Entry =
    | Parent(route: RouteConfig)
    | Weighted(parent: RouteConfig, cluster: WeightedCluster)

  /** Everything a caller can ask of a route entry, gathered in one record. */
  datatype EntryView = EntryView(
    routeName: string,
    clusterName: string,
    criteria: Option<MatchCriteria>,
    requestMutation: seq<MutationEntry>,
    responseMutation: seq<MutationEntry>,
    hashPolicy: Option<HashPolicy>,
    mirrorPolicies: seq<MirrorPolicy>)

  /** The parent route's answers. */
  function ParentView(route: RouteConfig): EntryView {
    EntryView(route.routeName, route.clusterName, route.criteria, route.requestMutation,
              route.responseMutation, route.hashPolicy, route.mirrorPolicies)
  }

  /** A weighted entry's own answers: its cluster name; its criteria, falling back to the
      parent's when it has none; the parent's for everything else. */
  function View(e: Entry): EntryView {
    match e
    case Parent(route) => ParentView(route)
    case Weighted(parent, cluster) =>
      var p := ParentView(parent);
      EntryView(p.routeName, cluster.clusterName,
                if cluster.criteria.Some? then cluster.criteria else p.criteria,
                p.requestMutation, p.responseMutation, p.hashPolicy, p.mirrorPolicies)
  }

  /** The entry a route resolves to: a weighted entry answers for itself, and so does a parent
      route (its `routeEntry` body is in the implementation file, which is not part of this model). */
  function RouteEntryOf(e: Entry): Entry {
    e
  }

  /** The weighted entries of a route, one per configured weighted cluster and in configuration
      order; each answers with the route's name and its own cluster's name. */
  function WeightedEntries(route: RouteConfig): (es: seq<Entry>)
    ensures |es| == |route.weightedClusters|
    ensures forall i :: 0 <= i < |es| ==>
      && View(es[i]).routeName == route.routeName
      && View(es[i]).clusterName == route.weightedClusters[i].clusterName
  {
    seq(|route.weightedClusters|, i requires 0 <= i < |route.weightedClusters| => Weighted(route, route.weightedClusters[i]))
  }

  /** A weighted entry differs from its parent in at most the cluster name and the criteria:
      route name, mutations, hash policy and mirror policies are the parent's. */
  lemma WeightedDelegates(parent: RouteConfig, cluster: WeightedCluster)
    ensures View(Weighted(parent, cluster))
         == ParentView(parent).(clusterName := cluster.clusterName,
                                criteria := if cluster.criteria.Some? then cluster.criteria else parent.criteria)
    ensures RouteEntryOf(Weighted(parent, cluster)) == Weighted(parent, cluster)
  {
  }

  /** A weighted entry answers every question exactly as its parent does iff it names the
      parent's cluster and either has no criteria of its own or the parent's. */
  lemma WeightedLikeParentIff(parent: RouteConfig, cluster: WeightedCluster)
    ensures View(Weighted(parent, cluster)) == View(Parent(parent))
        <==> cluster.clusterName == parent.clusterName
             && (cluster.criteria.None? || cluster.criteria == parent.criteria)
  {
    var w := View(Weighted(parent, cluster));
    if w == View(Parent(parent)) {
      assert w.clusterName == parent.clusterName;
      assert w.criteria == parent.criteria;
    }
  }
}

=== FILE: router.dfy ===
/**
  The router's preparation of an upstream request: look the cluster up, refuse it while it is in
  maintenance, then ask it for a TCP connection pool. Each refusal is a protocol exception plus a
  response-code detail; success is the pool and an empty detail.
 */
module Router {
  import opened Common
  import opened MetaProtocol

  /** The cluster information the owner keeps once a cluster is found. */
  datatype ClusterInfo = ClusterInfo(name: string, maintenanceMode: bool)

  /** An opaque handle on a cluster's TCP connection pool. */
  datatype TcpPoolData = TcpPoolData(id: nat)

  /** A thread-local cluster: its information, and the pool it hands out for this request's
      load-balancing context (`None` when no healthy host is available). */
  datatype ThreadLocalCluster = ThreadLocalCluster(info: ClusterInfo, pool: Option<TcpPoolData>)

  /** The cluster manager's thread-local view: the clusters it knows, by name. */
  type ClusterManager = map<string, ThreadLocalCluster>

  /** What preparing an upstream request yields. */
  datatype PrepareResult = PrepareResult(
    exception: Option<AppException>,
    connPoolData: Option<TcpPoolData>,
    responseCodeDetail: string)

  /** The owner's recorded cluster after preparation, and the result. */
  datatype Prepared = Prepared(cluster: Option<ClusterInfo>, result: PrepareResult)

  const MessagePrefix: string := "meta protocol router: "

  function UnknownClusterMessage(name: string): string {
    MessagePrefix + "unknown cluster '" + name + "'"
  }

  function MaintenanceMessage(name: string): string {
    MessagePrefix + "maintenance mode for cluster '" + name + "'"
  }

  function NoHealthyUpstreamMessage(name: string): string {
    MessagePrefix + "no healthy upstream for '" + name + "'"
  }

  /** The preparation cascade: existence, then maintenance, then the pool. The owner's recorded
      cluster is replaced as soon as the cluster is found, even when a later check refuses it,
      and is left as it was when the cluster is unknown.
      Each refusal's error type and response-code detail say which check refused, and only
      success yields a pool, with an empty detail. */
  function PrepareUpstreamRequest(recorded: Option<ClusterInfo>, clusters: ClusterManager, name: string): (p: Prepared)
    ensures p.result.exception.Some? != p.result.connPoolData.Some?
    ensures p.cluster == (if name in clusters then Some(clusters[name].info) else recorded)
    ensures p.result.connPoolData.Some?
        <==> name in clusters && !clusters[name].info.maintenanceMode && clusters[name].pool.Some?
    ensures p.result.connPoolData.Some? ==> p.result.connPoolData == clusters[name].pool
    ensures p.result.exception.Some? && p.result.exception.value.errorType == ClusterNotFound
        <==> name !in clusters
    ensures p.result.exception.Some? && p.result.exception.value.errorType == Unspecified
        <==> name in clusters && clusters[name].info.maintenanceMode
    ensures p.result.exception.Some? && p.result.exception.value.errorType == NoHealthyUpstream
        <==> name in clusters && !clusters[name].info.maintenanceMode && clusters[name].pool.None?
    ensures name !in clusters ==> p.result.responseCodeDetail == "unknown_cluster"
    ensures name in clusters && clusters[name].info.maintenanceMode
        ==> p.result.responseCodeDetail == "cluster_in_maintenance_mode"
    ensures name in clusters && !clusters[name].info.maintenanceMode && clusters[name].pool.None?
        ==> p.result.responseCodeDetail == "no_healthy_upstream"
    ensures p.result.connPoolData.Some? ==> p.result.responseCodeDetail == ""
  {
    if name !in clusters then
      Prepared(recorded, PrepareResult(Some(AppException(ClusterNotFound, UnknownClusterMessage(name))), None, "unknown_cluster"))
    else
      var cluster := clusters[name];
      if cluster.info.maintenanceMode then
        Prepared(Some(cluster.info), PrepareResult(Some(AppException(Unspecified, MaintenanceMessage(name))), None, "cluster_in_maintenance_mode"))
      else if cluster.pool.None? then
        Prepared(Some(cluster.info), PrepareResult(Some(AppException(NoHealthyUpstream, NoHealthyUpstreamMessage(name))), None, "no_healthy_upstream"))
      else
        Prepared(Some(cluster.info), PrepareResult(None, cluster.pool, ""))
  }

  /** Every refusal's message names the cluster that was asked for. */
  lemma RefusalNamesCluster(recorded: Option<ClusterInfo>, clusters: ClusterManager, name: string)
    ensures var r := PrepareUpstreamRequest(recorded, clusters, name).result;
      r.exception.Some? ==> Mentions(r.exception.value.message, name)
  {
    if name !in clusters {
      MentionsInfix(MessagePrefix + "unknown cluster '", name, "'");
    } else if clusters[name].info.maintenanceMode {
      MentionsInfix(MessagePrefix + "maintenance mode for cluster '", name, "'");
    } else if clusters[name].pool.None? {
      MentionsInfix(MessagePrefix + "no healthy upstream for '", name, "'");
    }
  }

  /** The response-code detail identifies the outcome: it is empty exactly on success, and two
      preparations with the same detail failed (or succeeded) in the same way, whatever the
      clusters involved. */
  lemma DetailIdentifiesOutcome(rec1: Option<ClusterInfo>, clusters1: ClusterManager, name1: string,
                                rec2: Option<ClusterInfo>, clusters2: ClusterManager, name2: string)
    ensures var r1 := PrepareUpstreamRequest(rec1, clusters1, name1).result;
      r1.responseCodeDetail == "" <==> r1.connPoolData.Some?
    ensures var r1 := PrepareUpstreamRequest(rec1, clusters1, name1).result;
      var r2 := PrepareUpstreamRequest(rec2, clusters2, name2).result;
      r1.responseCodeDetail == r2.responseCodeDetail ==>
        && r1.exception.Some? == r2.exception.Some?
        && (r1.exception.Some? ==> r1.exception.value.errorType == r2.exception.value.errorType)
  {
  }
}

=== FILE: upstream_base.dfy ===
/**
  What both upstream request variants share (UpstreamRequestBase): the request's flags and
  buffer, the events it produces towards its owner, and the handling of a connection reset.

  The owner (the router filter, through its RequestOwner interface) is modelled as the trace
  of `Event`s the request produces; `CountOf` reads off a trace how many events of each kind
  it holds, which is what the lifecycle properties count, and `Signals` projects it onto the
  filter callback contract of the `Filter` module.
 */
module UpstreamBase {
  import opened Common
  import opened MetaProtocol
  import opened Filter

  /** Identity of a pending connection-pool request (the pool's Cancellable). */
  type Handle = nat

  datatype Event =
    // calls into the owner
    | HostSelected(selected: Option<Host>)                // onUpstreamHostSelected
    | ContinueDecoding                                    // continueDecoding
    | SendLocalReply(reply: LocalReply, endStream: bool)
    | ResetStream
    | SetUpstreamConnection(conn: Conn)                   // ownership moves to the owner
    // the owner filter towards its connection manager
    | FilterReturned(status: FilterStatus)                // the decode step returns `status`
    | FilterDestroyed                                     // onDestroy
    // the outlier detector, the pool, the connection and the upstream handler
    | Outlier(host: Host, result: OutlierResult)
    | AddUpstreamCallbacks(conn: Conn)
    | Written(conn: Conn, metadata: Metadata, length: nat) // codec encode, then connection write
    | HandlerData(metadata: Metadata, length: nat)        // codec encode, then handler onData
    | PoolCancelled(handle: Handle)
    | ConnectionClosed(conn: Conn)
    | ConnectionReleased(conn: Conn)                      // ConnectionData destroyed: back to the pool
    | HandlerRegistered
    | HandlerDeregistered

  /** UpstreamRequestBase's own state. */
  datatype Base = Base(
    metadata: Metadata,
    host: Option<Host>,          // upstream_host_
    bufferLength: nat,           // upstream_request_buffer_
    requestComplete: bool,
    responseComplete: bool,
    streamReset: bool)

  /** The constructor moves the original message bytes out of the metadata into the buffer. */
  function Create(metadata: Metadata): (b: Base)
    ensures b.bufferLength == metadata.originLength
    ensures b.metadata.originLength == 0
    ensures b.metadata.messageType == metadata.messageType && b.metadata.headers == metadata.headers
    ensures b.host.None? && !b.requestComplete && !b.responseComplete && !b.streamReset
  {
    Base(metadata.(originLength := 0), None, metadata.originLength, false, false, false)
  }

  // -----------------------------------------------------------------------------------------
  // Reading a trace
  // -----------------------------------------------------------------------------------------

  /** What an event amounts to for the owner's bookkeeping. Every event amounts to at least
      one kind, so counts that are all zero mean no event at all (`NoCountNoEvent`). */
  datatype Kind =
    | Select     // onUpstreamHostSelected
    | Resume     // continueDecoding
    | Reply      // a local reply
    | Reset      // resetStream
    | Handoff    // a connection handed to the owner
    | Write      // an encoded request sent upstream
    | Register   // upstream callbacks added to the connection, or registration with the handler
    | Deregister // registration with the handler removed
    | Cancel     // a pending pool request cancelled
    | Close      // a connection closed
    | Dispose    // a connection given back to the pool or handed to the owner
    | Report     // an outlier detector report
    | Control    // the owner filter talking to its connection manager

  /** Whether `e` amounts to `k`; handing a connection over also disposes of it. */
  predicate Amounts(e: Event, k: Kind) {
    match e
    case HostSelected(_) => k == Select
    case ContinueDecoding => k == Resume
    case SendLocalReply(_, _) => k == Reply
    case ResetStream => k == Reset
    case SetUpstreamConnection(_) => k == Handoff || k == Dispose
    case Written(_, _, _) => k == Write
    case HandlerData(_, _) => k == Write
    case AddUpstreamCallbacks(_) => k == Register
    case HandlerRegistered => k == Register
    case HandlerDeregistered => k == Deregister
    case PoolCancelled(_) => k == Cancel
    case ConnectionClosed(_) => k == Close
    case ConnectionReleased(_) => k == Dispose
    case Outlier(_, _) => k == Report
    case FilterReturned(_) => k == Control
    case FilterDestroyed => k == Control
  }

  /** A kind every event amounts to. */
  function KindOf(e: Event): (k: Kind)
    ensures Amounts(e, k)
  {
    match e
    case HostSelected(_) => Select
    case ContinueDecoding => Resume
    case SendLocalReply(_, _) => Reply
    case ResetStream => Reset
    case SetUpstreamConnection(_) => Handoff
    case Written(_, _, _) => Write
    case HandlerData(_, _) => Write
    case AddUpstreamCallbacks(_) => Register
    case HandlerRegistered => Register
    case HandlerDeregistered => Deregister
    case PoolCancelled(_) => Cancel
    case ConnectionClosed(_) => Close
    case ConnectionReleased(_) => Dispose
    case Outlier(_, _) => Report
    case FilterReturned(_) => Control
    case FilterDestroyed => Control
  }

  /** How many events of `t` amount to `k`. */
  function CountOf(t: seq<Event>, k: Kind): nat
    decreases |t|
  {
    if |t| == 0 then 0 else (if Amounts(t[0], k) then 1 else 0) + CountOf(t[1..], k)
  }

  /** The counts see every event: a trace with no event of any kind is empty. */
  lemma NoCountNoEvent(t: seq<Event>)
    ensures (forall k :: CountOf(t, k) == 0) <==> t == []
  {
    if t != [] {
      assert CountOf(t, KindOf(t[0])) > 0;
    }
  }

  lemma {:induction false} CountAppend(a: seq<Event>, b: seq<Event>, k: Kind)
    ensures CountOf(a + b, k) == CountOf(a, k) + CountOf(b, k)
    decreases |a|
  {
    if |a| == 0 {
      assert a + b == b;
    } else {
      assert (a + b)[0] == a[0];
      assert (a + b)[1..] == a[1..] + b;
      CountAppend(a[1..], b, k);
    }
  }

  /** What an event means for the owner filter's callback contract. */
  function SignalsOfEvent(e: Event): seq<Signal> {
    match e
    case ContinueDecoding => [Continue(Decoder)]
    case SendLocalReply(_, _) => [Callback(Decoder)]
    case ResetStream => [Callback(Decoder)]
    case SetUpstreamConnection(_) => [Callback(Decoder)]
    case FilterReturned(status) => [Returned(Decoder, status)]
    case FilterDestroyed => [Destroyed]
    case _ => []
  }

  function Signals(t: seq<Event>): seq<Signal>
    decreases |t|
  {
    if |t| == 0 then [] else SignalsOfEvent(t[0]) + Signals(t[1..])
  }

  lemma {:induction false} SignalsAppend(a: seq<Event>, b: seq<Event>)
    ensures Signals(a + b) == Signals(a) + Signals(b)
    decreases |a|
  {
    if |a| == 0 {
      assert a + b == b;
    } else {
      assert (a + b)[0] == a[0];
      assert (a + b)[1..] == a[1..] + b;
      SignalsAppend(a[1..], b);
    }
  }

  lemma SingleEvent(e: Event)
    ensures forall k :: CountOf([e], k) == (if Amounts(e, k) then 1 else 0)
    ensures forall k :: CountOf([], k) == 0
  {
    assert [e][1..] == [];
  }

  /** Counts of a two-part trace. */
  lemma Concat2(a: seq<Event>, b: seq<Event>)
    ensures forall k :: CountOf(a + b, k) == CountOf(a, k) + CountOf(b, k)
  {
    forall k ensures CountOf(a + b, k) == CountOf(a, k) + CountOf(b, k) {
      CountAppend(a, b, k);
    }
  }

  /** An event that neither resumes nor talks to the connection manager leaves an open filter
      as it is. */
  lemma QuietEvent(st: ProtocolState, e: Event)
    requires st.decoder.callbacksSet && !st.destroyed
    requires !Amounts(e, Control) && !e.ContinueDecoding?
    ensures Feed(Some(st), SignalsOfEvent(e)) == Some(st)
  {
    var s := SignalsOfEvent(e);
    assert s == [] || s == [Callback(Decoder)];
    FeedSingle(Some(st), Callback(Decoder));
  }

  /** A resume uses up one outstanding pause, and breaks the contract when there is none. */
  lemma ResumeEvent(st: ProtocolState)
    requires st.decoder.callbacksSet && !st.destroyed
    ensures Feed(Some(st), SignalsOfEvent(ContinueDecoding))
         == if st.decoder.outstanding == 0 then None
            else Some(st.(decoder := Side(true, st.decoder.outstanding - 1)))
  {
    FeedSingle(Some(st), Continue(Decoder));
  }

  /** Events the request itself produces leave the filter's callbacks in place and only use up
      one earlier pause per resume. */
  lemma {:induction false} FeedRequestEvents(st: ProtocolState, t: seq<Event>)
    requires st.decoder.callbacksSet && !st.destroyed
    requires CountOf(t, Control) == 0 && CountOf(t, Resume) <= st.decoder.outstanding
    ensures Feed(Some(st), Signals(t)) == Some(st.(decoder := Side(true, st.decoder.outstanding - CountOf(t, Resume))))
    decreases |t|
  {
    if |t| == 0 {
      assert st.decoder == Side(true, st.decoder.outstanding);
    } else {
      FeedAppend(Some(st), SignalsOfEvent(t[0]), Signals(t[1..]));
      if t[0].ContinueDecoding? {
        ResumeEvent(st);
        FeedRequestEvents(st.(decoder := Side(true, st.decoder.outstanding - 1)), t[1..]);
      } else {
        QuietEvent(st, t[0]);
        FeedRequestEvents(st, t[1..]);
      }
    }
  }

  /** Resuming decoding more often than it was paused breaks the filter contract. */
  lemma {:induction false} FeedExcessResume(st: ProtocolState, t: seq<Event>)
    requires st.decoder.callbacksSet && !st.destroyed
    requires CountOf(t, Control) == 0 && CountOf(t, Resume) > st.decoder.outstanding
    ensures Feed(Some(st), Signals(t)) == None
    decreases |t|
  {
    FeedAppend(Some(st), SignalsOfEvent(t[0]), Signals(t[1..]));
    if t[0].ContinueDecoding? {
      ResumeEvent(st);
      if st.decoder.outstanding == 0 {
        FeedStuck(Signals(t[1..]));
      } else {
        FeedExcessResume(st.(decoder := Side(true, st.decoder.outstanding - 1)), t[1..]);
      }
    } else {
      QuietEvent(st, t[0]);
      FeedExcessResume(st, t[1..]);
    }
  }

  // -----------------------------------------------------------------------------------------
  // The owner filter's view
  // -----------------------------------------------------------------------------------------

  /** What the owner filter's connection manager sees: it set the decoder callbacks, then every
      signal of the trace. */
  function Contract(trace: seq<Event>): seq<Signal> {
    [SetCallbacks(Decoder)] + Signals(trace)
  }

  /** The filter state with decoder callbacks set and `n` pauses awaiting a resume. */
  function Open(n: nat): ProtocolState {
    ProtocolState(Side(true, n), Side(false, 0), false, false)
  }

  /** Request events fed to an open filter only use up its pauses. */
  lemma FeedOpen(pending: nat, events: seq<Event>)
    requires CountOf(events, Control) == 0 && CountOf(events, Resume) <= pending
    ensures Feed(Some(Open(pending)), Signals(events)) == Some(Open(pending - CountOf(events, Resume)))
  {
    FeedRequestEvents(Open(pending), events);
  }

  /** Appending a transition's events that resume at most as often as decoding is paused, and
      never talk to the connection manager, keeps the filter contract. */
  lemma Extend(trace: seq<Event>, events: seq<Event>, pending: nat)
    requires Feed(Some(Open(0)), Signals(trace)) == Some(Open(pending))
    requires CountOf(events, Control) == 0 && CountOf(events, Resume) <= pending
    ensures Feed(Some(Open(0)), Signals(trace + events)) == Some(Open(pending - CountOf(events, Resume)))
  {
    SignalsAppend(trace, events);
    FeedAppend(Some(Open(0)), Signals(trace), Signals(events));
    FeedOpen(pending, events);
  }

  /** The filter returning a status: a pause adds one to what is outstanding. */
  lemma Returns(trace: seq<Event>, status: FilterStatus, n: nat)
    requires Feed(Some(Open(0)), Signals(trace)) == Some(Open(n))
    ensures Feed(Some(Open(0)), Signals(trace + [FilterReturned(status)]))
         == Some(Open(if status == PauseIteration then n + 1 else n))
  {
    SignalsAppend(trace, [FilterReturned(status)]);
    assert Signals([FilterReturned(status)]) == [Returned(Decoder, status)];
    FeedAppend(Some(Open(0)), Signals(trace), [Returned(Decoder, status)]);
    FeedSingle(Some(Open(n)), Returned(Decoder, status));
  }

  /** Setting the decoder callbacks opens the filter with nothing paused. */
  lemma ContractFeed(trace: seq<Event>)
    ensures Feed(Some(Initial), Contract(trace)) == Feed(Some(Open(0)), Signals(trace))
  {
    FeedAppend(Some(Initial), [SetCallbacks(Decoder)], Signals(trace));
    FeedSingle(Some(Initial), SetCallbacks(Decoder));
  }

  /** Destroying the filter after events it keeps silent about leaves the contract kept. */
  lemma DestroyQuietly(trace: seq<Event>, events: seq<Event>, pending: nat)
    requires Feed(Some(Open(0)), Signals(trace)) == Some(Open(pending))
    requires Signals(events) == []
    ensures Feed(Some(Open(0)), Signals(trace + [FilterDestroyed] + events)).Some?
  {
    var closing := [FilterDestroyed] + events;
    SignalsAppend([FilterDestroyed], events);
    assert Signals([FilterDestroyed]) == [Destroyed];
    SignalsAppend(trace, closing);
    assert trace + [FilterDestroyed] + events == trace + closing;
    FeedAppend(Some(Open(0)), Signals(trace), [Destroyed]);
    FeedSingle(Some(Open(pending)), Destroyed);
  }

  /** Events that neither resume nor talk to the connection manager, then the filter returning
      a status: the filter is open, with one pause outstanding iff the status paused. */
  lemma Opens(events: seq<Event>, status: FilterStatus)
    requires CountOf(events, Control) == 0 && CountOf(events, Resume) == 0
    ensures Feed(Some(Open(0)), Signals(events + [FilterReturned(status)]))
         == Some(Open(if status == PauseIteration then 1 else 0))
  {
    assert Feed(Some(Open(0)), Signals([])) == Some(Open(0));
    Extend([], events, 0);
    assert [] + events == events;
    Returns(events, status, 0);
  }

  /** A run that resumes no more than was paused, then the filter's destruction and events it
      keeps silent about, keeps the filter contract. */
  lemma Settles(front: seq<Event>, events: seq<Event>, release: seq<Event>, pending: nat)
    requires Feed(Some(Open(0)), Signals(front)) == Some(Open(pending))
    requires CountOf(events, Control) == 0 && CountOf(events, Resume) <= pending
    requires Signals(release) == []
    ensures Accepts(Contract(front + events + [FilterDestroyed] + release))
  {
    Extend(front, events, pending);
    DestroyQuietly(front + events, release, pending - CountOf(events, Resume));
    ContractFeed(front + events + [FilterDestroyed] + release);
  }

  /** Events that neither resume, reply, reset, hand over nor talk to the connection manager
      carry no signal for the filter contract. */
  lemma {:induction false} SilentEvents(t: seq<Event>)
    requires CountOf(t, Resume) == 0 && CountOf(t, Reply) == 0 && CountOf(t, Reset) == 0
    requires CountOf(t, Handoff) == 0 && CountOf(t, Control) == 0
    ensures Signals(t) == []
    decreases |t|
  {
    if |t| > 0 {
      SilentEvents(t[1..]);
    }
  }

  /** Counting over a torn-down trace: the destruction is the one extra call on the connection
      manager. */
  lemma ClosingCount(trace: seq<Event>, events: seq<Event>, k: Kind)
    ensures CountOf(trace + [FilterDestroyed] + events, k)
         == CountOf(trace, k) + CountOf(events, k) + (if k == Control then 1 else 0)
  {
    SingleEvent(FilterDestroyed);
    CountAppend(trace, [FilterDestroyed], k);
    CountAppend(trace + [FilterDestroyed], events, k);
  }

  // -----------------------------------------------------------------------------------------
  // Connection reset
  // -----------------------------------------------------------------------------------------

  const ReplyPrefix: string := "meta protocol upstream request: "

  /** The message of the local reply sent for a pool failure or connection reset. */
  function ResetMessage(reason: PoolFailureReason, address: string): string {
    match reason
    case Overflow => ReplyPrefix + "too many connections"
    case LocalConnectionFailure => ReplyPrefix + "local connection failure '" + address + "'"
    case RemoteConnectionFailure => ReplyPrefix + "remote connection failure '" + address + "'"
    case Timeout => ReplyPrefix + "connection failure '" + address + "' due to timeout"
  }

  /** Each failure reason has its own reply, whatever the hosts involved. */
  lemma ResetMessagesDistinct(r1: PoolFailureReason, a1: string, r2: PoolFailureReason, a2: string)
    requires r1 != r2
    ensures ResetMessage(r1, a1) != ResetMessage(r2, a2)
  {
    var n := |ReplyPrefix|;
    assert ResetMessage(r1, a1)[n] != ResetMessage(r2, a2)[n];
  }

  /** Every connection-error reply names the upstream host's address. */
  lemma ResetMessageNamesHost(reason: PoolFailureReason, address: string)
    requires reason != Overflow
    ensures Mentions(ResetMessage(reason, address), address)
  {
    match reason
    case LocalConnectionFailure =>
      MentionsInfix(ReplyPrefix + "local connection failure '", address, "'");
    case RemoteConnectionFailure =>
      MentionsInfix(ReplyPrefix + "remote connection failure '", address, "'");
    case Timeout =>
      MentionsInfix(ReplyPrefix + "connection failure '", address, "' due to timeout");
  }

  /** The reset handling reads the upstream host's address: for a reply to a connection error. */
  predicate ReplyNamesHost(messageType: MessageType, reason: PoolFailureReason) {
    messageType != Oneway && reason != Overflow
  }

  /** A local reply for a pool failure or connection reset, kept symbolic in the trace: the
      failure reason and the upstream host's address (empty when the message does not name it). */
  datatype LocalReply = ResetReplyFor(reason: PoolFailureReason, address: string)

  /** The exception a reset reply is sent as: an unspecified error whose message names the host
      for every connection error. */
  function Rendered(reply: LocalReply): (e: AppException)
    ensures e.errorType == Unspecified
    ensures reply.reason != Overflow ==> Mentions(e.message, reply.address)
  {
    var e := AppException(Unspecified, ResetMessage(reply.reason, reply.address));
    assert reply.reason != Overflow ==> Mentions(e.message, reply.address) by {
      if reply.reason != Overflow {
        ResetMessageNamesHost(reply.reason, reply.address);
      }
    }
    e
  }

  function ResetReply(b: Base, reason: PoolFailureReason): LocalReply
    requires ReplyNamesHost(b.metadata.messageType, reason) ==> b.host.Some?
  {
    ResetReplyFor(reason, if b.host.Some? then b.host.value.address else "")
  }

  /** onUpstreamConnectionReset: a one-way request is only reset; any other request gets exactly
      one local reply, followed by a stream reset unless its response already completed. */
  function OnUpstreamConnectionReset(b: Base, reason: PoolFailureReason): (events: seq<Event>)
    requires ReplyNamesHost(b.metadata.messageType, reason) ==> b.host.Some?
  {
    if b.metadata.messageType == Oneway then [ResetStream]
    else [SendLocalReply(ResetReply(b, reason), false)] + (if b.responseComplete then [] else [ResetStream])
  }

  /** How many events of each kind a reset produces: a one-way request is only reset; any other
      request gets one reply, then a reset iff its response has not completed. */
  function StreamEnd(messageType: MessageType, responseComplete: bool, k: Kind): nat {
    match k
    case Reply => if messageType == Oneway then 0 else 1
    case Reset => if messageType != Oneway && responseComplete then 0 else 1
    case _ => 0
  }

  /** A reset ends the stream as `StreamEnd` says; any reply comes first and carries the
      reason's message. */
  lemma ConnectionResetOutcome(b: Base, reason: PoolFailureReason)
    requires ReplyNamesHost(b.metadata.messageType, reason) ==> b.host.Some?
    ensures var events := OnUpstreamConnectionReset(b, reason);
      && (forall k :: CountOf(events, k) == StreamEnd(b.metadata.messageType, b.responseComplete, k))
      && (b.metadata.messageType != Oneway ==>
            |events| > 0 && events[0] == SendLocalReply(ResetReply(b, reason), false))
  {
    SingleEvent(ResetStream);
    if b.metadata.messageType != Oneway {
      var reply := SendLocalReply(ResetReply(b, reason), false);
      var rest: seq<Event> := if b.responseComplete then [] else [ResetStream];
      assert OnUpstreamConnectionReset(b, reason) == [reply] + rest;
      SingleEvent(reply);
      Concat2([reply], rest);
    }
  }

  /** onUpstreamConnectionEvent: a remote close is a remote connection failure and is reported to
      the outlier detector; a local close is a local connection failure. The source rules out
      events after the response completed and the Connected events. */
  function OnUpstreamConnectionEvent(b: Base, event: ConnectionEvent): (events: seq<Event>)
    requires !b.responseComplete
    requires event == RemoteClose || event == LocalClose
    requires b.host.Some? || (event == LocalClose && b.metadata.messageType == Oneway)
  {
    if event == RemoteClose
    then OnUpstreamConnectionReset(b, RemoteConnectionFailure) + [Outlier(b.host.value, LocalOriginConnectFailed)]
    else OnUpstreamConnectionReset(b, LocalConnectionFailure)
  }

  /** The reason a connection event stands for. */
  function EventReason(event: ConnectionEvent): PoolFailureReason
    requires event == RemoteClose || event == LocalClose
  {
    if event == RemoteClose then RemoteConnectionFailure else LocalConnectionFailure
  }

  /** A connection event ends the stream exactly once: one reset, preceded by the reply for the
      event's reason unless the request is one-way; only a remote close is reported, and only
      after the reset. */
  lemma ConnectionEventOutcome(b: Base, event: ConnectionEvent)
    requires !b.responseComplete
    requires event == RemoteClose || event == LocalClose
    requires b.host.Some? || (event == LocalClose && b.metadata.messageType == Oneway)
    ensures var events := OnUpstreamConnectionEvent(b, event);
      && CountOf(events, Reset) == 1
      && CountOf(events, Reply) == (if b.metadata.messageType == Oneway then 0 else 1)
      && CountOf(events, Report) == (if event == RemoteClose then 1 else 0)
      && (forall k | k != Reset && k != Reply && k != Report :: CountOf(events, k) == 0)
      && (b.metadata.messageType != Oneway ==>
            |events| > 0 && events[0] == SendLocalReply(ResetReply(b, EventReason(event)), false))
      && (forall i, j | 0 <= i < |events| && 0 <= j < |events| && events[i].ResetStream? && events[j].Outlier? :: i < j)
  {
    var reset := OnUpstreamConnectionReset(b, EventReason(event));
    ConnectionResetOutcome(b, EventReason(event));
    if event == RemoteClose {
      var o := Outlier(b.host.value, LocalOriginConnectFailed);
      assert OnUpstreamConnectionEvent(b, event) == reset + [o];
      SingleEvent(o);
      Concat2(reset, [o]);
    }
  }

  /** The reply to a connection event carries the event's reason and the host, and a remote close
      is reported to the host's outlier detector as a failed connection. */
  lemma ConnectionEventCalls(b: Base, event: ConnectionEvent)
    requires !b.responseComplete
    requires event == RemoteClose || event == LocalClose
    requires b.host.Some? || (event == LocalClose && b.metadata.messageType == Oneway)
    ensures var events := OnUpstreamConnectionEvent(b, event);
      && (b.metadata.messageType != Oneway ==> SendLocalReply(ResetReply(b, EventReason(event)), false) in events)
      && (event == RemoteClose ==> Outlier(b.host.value, LocalOriginConnectFailed) in events)
  {
    ConnectionResetOutcome(b, EventReason(event));
  }

  /** onRequestStart: resumes decoding only when asked to. */
  function OnRequestStart(continueDecoding: bool): (events: seq<Event>)
    ensures CountOf(events, Resume) == (if continueDecoding then 1 else 0)
    ensures forall k | k != Resume :: CountOf(events, k) == 0
  {
    SingleEvent(ContinueDecoding);
    if continueDecoding then [ContinueDecoding] else []
  }
}

=== FILE: upstream_by_handler.dfy ===
/**
  UpstreamRequestByHandler: the upstream request that sends through a shared upstream handler
  instead of borrowing a connection from the pool.

  The handler owns the connection. `start` either writes at once (the handler's pool is ready)
  or registers the request with the handler and pauses; the handler later answers the
  registered request with onPoolReady or onPoolFailure. The handler itself is not part of this
  model: whether its pool is ready and how it answers are inputs, and what it is told is in the
  trace (`HandlerData`, `HandlerRegistered`, `HandlerDeregistered`).
 */
module UpstreamByHandler {
  import opened Common
  import opened MetaProtocol
  import opened Filter
  import opened UpstreamBase

  datatype HandlerRequest = HandlerRequest(base: Base, registered: bool)

  datatype HandlerTransition = HandlerTransition(next: HandlerRequest, events: seq<Event>)

  datatype HandlerStarted = HandlerStarted(next: HandlerRequest, events: seq<Event>, status: FilterStatus)

  function Create(metadata: Metadata): (r: HandlerRequest)
    ensures !r.registered && r.base == UpstreamBase.Create(metadata)
  {
    HandlerRequest(UpstreamBase.Create(metadata), false)
  }

  /** encodeData: encode the buffered request and pass it to the handler's onData. */
  function EncodeData(r: HandlerRequest): (t: HandlerTransition)
    ensures t.next == r
    ensures CountOf(t.events, Write) == 1 && forall k | k != Write :: CountOf(t.events, k) == 0
    ensures HandlerData(r.base.metadata, r.base.bufferLength) in t.events
  {
    SingleEvent(HandlerData(r.base.metadata, r.base.bufferLength));
    HandlerTransition(r, [HandlerData(r.base.metadata, r.base.bufferLength)])
  }

  /** start: write at once when the handler's pool is ready; otherwise register with the handler
      and pause until it answers. */
  function Start(r: HandlerRequest, handlerReady: bool): (s: HandlerStarted)
    requires !r.registered
    ensures s.status == PauseIteration <==> !handlerReady
    ensures s.status != PauseIteration ==> s.status == ContinueIteration
    ensures s.next.registered <==> !handlerReady
    ensures s.next.base == r.base
    ensures CountOf(s.events, Write) == (if handlerReady then 1 else 0)
    ensures CountOf(s.events, Register) == (if handlerReady then 0 else 1)
    ensures forall k | k != Write && k != Register :: CountOf(s.events, k) == 0
    ensures HandlerData(r.base.metadata, r.base.bufferLength) in s.events <==> handlerReady
    ensures HandlerRegistered in s.events <==> !handlerReady
  {
    if handlerReady then
      var t := EncodeData(r);
      HandlerStarted(t.next, t.events, ContinueIteration)
    else
      SingleEvent(HandlerRegistered);
      HandlerStarted(r.(registered := true), [HandlerRegistered], PauseIteration)
  }

  /** The handler's pool fails: the failure is answered like an upstream reset, the buffer is
      dropped, and decoding resumes after a connection error. Unlike the pool variant, no outlier
      detector is told and there is no pool handle to clear. */
  function OnPoolFailure(r: HandlerRequest, reason: PoolFailureReason, host: Option<Host>): (t: HandlerTransition)
    requires ReplyNamesHost(r.base.metadata.messageType, reason) ==> host.Some?
    ensures t.next.base.host == host && t.next.base.bufferLength == 0
    ensures t.next.registered == r.registered
    ensures t.next.base.metadata == r.base.metadata
    ensures t.next.base.responseComplete == r.base.responseComplete
  {
    var b := r.base.(host := host);
    HandlerTransition(r.(base := b.(bufferLength := 0)),
                      [HostSelected(host)] + (OnUpstreamConnectionReset(b, reason) + FailureResume(reason)))
  }

  /** The resume at the end of a handler failure: only a connection error resumes decoding. */
  function FailureResume(reason: PoolFailureReason): (events: seq<Event>)
    ensures CountOf(events, Resume) == (if IsConnectionError(reason) then 1 else 0)
    ensures forall k | k != Resume :: CountOf(events, k) == 0
  {
    SingleEvent(ContinueDecoding);
    if IsConnectionError(reason) then [ContinueDecoding] else []
  }

  /** What a handler failure adds to a trace, per kind: the host told to the owner, the stream
      end of a reset, and a resume for a connection error. */
  function HandlerFailureEffects(messageType: MessageType, responseComplete: bool, reason: PoolFailureReason, k: Kind): nat {
    (if k == Select then 1 else 0)
      + StreamEnd(messageType, responseComplete, k) + (if k == Resume && IsConnectionError(reason) then 1 else 0)
  }

  lemma OnPoolFailureOutcome(r: HandlerRequest, reason: PoolFailureReason, host: Option<Host>)
    requires ReplyNamesHost(r.base.metadata.messageType, reason) ==> host.Some?
    ensures var events := OnPoolFailure(r, reason, host).events;
      && (forall k :: CountOf(events, k) == HandlerFailureEffects(r.base.metadata.messageType, r.base.responseComplete, reason, k))
      && (r.base.metadata.messageType != Oneway ==> SendLocalReply(ResetReply(r.base.(host := host), reason), false) in events)
  {
    var b := r.base.(host := host);
    ConnectionResetOutcome(b, reason);
    Concat2([HostSelected(host)], OnUpstreamConnectionReset(b, reason) + FailureResume(reason));
    forall k ensures CountOf(OnPoolFailure(r, reason, host).events, k) == HandlerFailureEffects(r.base.metadata.messageType, r.base.responseComplete, reason, k) {
      FailureCount(r, reason, host, k);
    }
  }

  /** One kind of a handler failure's effects. */
  lemma FailureCount(r: HandlerRequest, reason: PoolFailureReason, host: Option<Host>, k: Kind)
    requires ReplyNamesHost(r.base.metadata.messageType, reason) ==> host.Some?
    ensures CountOf(OnPoolFailure(r, reason, host).events, k) == HandlerFailureEffects(r.base.metadata.messageType, r.base.responseComplete, reason, k)
  {
    var b := r.base.(host := host);
    var reset := OnUpstreamConnectionReset(b, reason);
    var tail := FailureResume(reason);
    ConnectionResetOutcome(b, reason);
    SingleEvent(HostSelected(host));
    CountAppend(reset, tail, k);
    CountAppend([HostSelected(host)], reset + tail, k);
  }

  /** The handler's pool is ready: record the host, resume decoding (start paused), hand the
      buffered request to the handler, and mark the request complete. */
  function OnPoolReady(r: HandlerRequest, host: Host): (t: HandlerTransition)
    ensures t.next.base.host == Some(host) && t.next.base.requestComplete
    ensures t.next.registered == r.registered
    ensures t.next.base.metadata == r.base.metadata
    ensures t.next.base.responseComplete == r.base.responseComplete
  {
    var sent := EncodeData(r.(base := r.base.(host := Some(host))));
    HandlerTransition(sent.next.(base := sent.next.base.(requestComplete := true)),
                      ([HostSelected(Some(host))] + OnRequestStart(true)) + sent.events)
  }

  lemma OnPoolReadyOutcome(r: HandlerRequest, host: Host)
    ensures var events := OnPoolReady(r, host).events;
      && CountOf(events, Select) == 1 && CountOf(events, Resume) == 1 && CountOf(events, Write) == 1
      && (forall k | k != Select && k != Resume && k != Write :: CountOf(events, k) == 0)
      && HandlerData(r.base.metadata, r.base.bufferLength) in events
  {
    var head := [HostSelected(Some(host))] + OnRequestStart(true);
    var sent := EncodeData(r.(base := r.base.(host := Some(host))));
    SingleEvent(HostSelected(Some(host)));
    Concat2([HostSelected(Some(host))], OnRequestStart(true));
    Concat2(head, sent.events);
  }

  /** releaseUpStreamConnection: the request unregisters from the handler, whatever `close` says;
      this variant does not mark the stream reset. */
  function Release(r: HandlerRequest): (t: HandlerTransition)
    ensures !t.next.registered && t.next.base == r.base
    ensures HandlerDeregistered in t.events
    ensures CountOf(t.events, Deregister) == 1 && forall k | k != Deregister :: CountOf(t.events, k) == 0
    ensures Signals(t.events) == []
  {
    SingleEvent(HandlerDeregistered);
    HandlerTransition(r.(registered := false), [HandlerDeregistered])
  }

  // -----------------------------------------------------------------------------------------
  // The whole request
  // -----------------------------------------------------------------------------------------

  /** How the handler answers a registered request. */
  datatype HandlerAnswer =
    | Ready(readyHost: Host)
    | Failed(reason: PoolFailureReason, failedHost: Option<Host>)

  /** The handler answers only requests that registered with it, and a failure reply that names
      the host comes with a host. */
  predicate Answerable(metadata: Metadata, handlerReady: bool, answer: Option<HandlerAnswer>) {
    match answer
    case None => true
    case Some(Ready(_)) => !handlerReady
    case Some(Failed(reason, host)) =>
      !handlerReady && (ReplyNamesHost(metadata.messageType, reason) ==> host.Some?)
  }

  /** The handler's answer, if any, delivered to the started request. */
  function Answer(r: HandlerRequest, answer: Option<HandlerAnswer>): HandlerTransition
    requires answer.Some? && answer.value.Failed? ==>
               (ReplyNamesHost(r.base.metadata.messageType, answer.value.reason) ==> answer.value.failedHost.Some?)
  {
    match answer
    case None => HandlerTransition(r, [])
    case Some(Ready(host)) => OnPoolReady(r, host)
    case Some(Failed(reason, host)) => OnPoolFailure(r, reason, host)
  }

  /** The owner's trace over the request's life: start, the filter returning start's status,
      the handler's answer, then the owner filter's destruction and the release. */
  function HandlerTrace(metadata: Metadata, handlerReady: bool, answer: Option<HandlerAnswer>): seq<Event>
    requires Answerable(metadata, handlerReady, answer)
  {
    var st := Start(Create(metadata), handlerReady);
    var a := Answer(st.next, answer);
    st.events + [FilterReturned(st.status)] + a.events + [FilterDestroyed] + Release(a.next).events
  }

  /** Resumes a handler answer emits. */
  function AnswerResumes(answer: Option<HandlerAnswer>): nat {
    match answer
    case Some(Ready(_)) => 1
    case Some(Failed(reason, _)) => if IsConnectionError(reason) then 1 else 0
    case None => 0
  }

  /** The start events and the returned status leave exactly start's pause outstanding. */
  lemma OpenedFilter(metadata: Metadata, handlerReady: bool)
    ensures var st := Start(Create(metadata), handlerReady);
      Feed(Some(Open(0)), Signals(st.events + [FilterReturned(st.status)])) == Some(Open(if handlerReady then 0 else 1))
  {
    var st := Start(Create(metadata), handlerReady);
    Opens(st.events, st.status);
  }

  /** The counts a handler failure's events have, kind by kind. */
  lemma FailureCounts(r: HandlerRequest, reason: PoolFailureReason, host: Option<Host>)
    requires ReplyNamesHost(r.base.metadata.messageType, reason) ==> host.Some?
    ensures var events := OnPoolFailure(r, reason, host).events;
      && CountOf(events, Resume) == (if IsConnectionError(reason) then 1 else 0)
      && CountOf(events, Control) == 0 && CountOf(events, Report) == 0 && CountOf(events, Write) == 0
      && CountOf(events, Reply) == (if r.base.metadata.messageType != Oneway then 1 else 0)
  {
    FailureCount(r, reason, host, Resume);
    FailureCount(r, reason, host, Control);
    FailureCount(r, reason, host, Report);
    FailureCount(r, reason, host, Write);
    FailureCount(r, reason, host, Reply);
  }

  /** Per kind, what an answer emits. */
  lemma AnswerCounts(r: HandlerRequest, answer: Option<HandlerAnswer>)
    requires answer.Some? && answer.value.Failed? ==>
               (ReplyNamesHost(r.base.metadata.messageType, answer.value.reason) ==> answer.value.failedHost.Some?)
    ensures var events := Answer(r, answer).events;
      && CountOf(events, Resume) == AnswerResumes(answer)
      && CountOf(events, Control) == 0 && CountOf(events, Report) == 0
      && CountOf(events, Write) == (if answer.Some? && answer.value.Ready? then 1 else 0)
      && CountOf(events, Reply) == (if answer.Some? && answer.value.Failed? && r.base.metadata.messageType != Oneway then 1 else 0)
  {
    match answer
    case None =>
    case Some(Ready(host)) =>
      OnPoolReadyOutcome(r, host);
    case Some(Failed(reason, host)) =>
      FailureCounts(r, reason, host);
  }

  lemma HandlerFilter(metadata: Metadata, handlerReady: bool, answer: Option<HandlerAnswer>)
    requires Answerable(metadata, handlerReady, answer)
    ensures Accepts(Contract(HandlerTrace(metadata, handlerReady, answer)))
  {
    var st := Start(Create(metadata), handlerReady);
    var front := st.events + [FilterReturned(st.status)];
    var a := Answer(st.next, answer);
    var pending := if handlerReady then 0 else 1;
    OpenedFilter(metadata, handlerReady);
    AnswerCounts(st.next, answer);
    assert HandlerTrace(metadata, handlerReady, answer) == front + a.events + [FilterDestroyed] + Release(a.next).events;
    Settles(front, a.events, Release(a.next).events, pending);
  }

  lemma HandlerCounts(metadata: Metadata, handlerReady: bool, answer: Option<HandlerAnswer>, k: Kind)
    requires Answerable(metadata, handlerReady, answer)
    ensures var st := Start(Create(metadata), handlerReady);
      var a := Answer(st.next, answer);
      CountOf(HandlerTrace(metadata, handlerReady, answer), k)
        == CountOf(st.events + [FilterReturned(st.status)], k) + CountOf(a.events, k)
         + (if k == Control || k == Deregister then 1 else 0)
  {
    var st := Start(Create(metadata), handlerReady);
    var front := st.events + [FilterReturned(st.status)];
    var a := Answer(st.next, answer);
    ClosingCount(front + a.events, Release(a.next).events, k);
    CountAppend(front, a.events, k);
  }

  /** Counting one kind over the front of the trace: start's events and the returned status. */
  lemma FrontCount(metadata: Metadata, handlerReady: bool, k: Kind)
    requires k != Control
    ensures var st := Start(Create(metadata), handlerReady);
      CountOf(st.events + [FilterReturned(st.status)], k)
        == (if (k == Write && handlerReady) || (k == Register && !handlerReady) then 1 else 0)
  {
    var st := Start(Create(metadata), handlerReady);
    SingleEvent(FilterReturned(st.status));
    CountAppend(st.events, [FilterReturned(st.status)], k);
  }

  lemma HandlerResumes(metadata: Metadata, handlerReady: bool, answer: Option<HandlerAnswer>)
    requires Answerable(metadata, handlerReady, answer)
    ensures CountOf(HandlerTrace(metadata, handlerReady, answer), Resume) == AnswerResumes(answer)
  {
    AnswerCounts(Start(Create(metadata), handlerReady).next, answer);
    FrontCount(metadata, handlerReady, Resume);
    HandlerCounts(metadata, handlerReady, answer, Resume);
  }

  lemma HandlerWrites(metadata: Metadata, handlerReady: bool, answer: Option<HandlerAnswer>)
    requires Answerable(metadata, handlerReady, answer)
    ensures CountOf(HandlerTrace(metadata, handlerReady, answer), Write)
         == (if handlerReady || (answer.Some? && answer.value.Ready?) then 1 else 0)
  {
    AnswerCounts(Start(Create(metadata), handlerReady).next, answer);
    FrontCount(metadata, handlerReady, Write);
    HandlerCounts(metadata, handlerReady, answer, Write);
  }

  lemma HandlerReplies(metadata: Metadata, handlerReady: bool, answer: Option<HandlerAnswer>)
    requires Answerable(metadata, handlerReady, answer)
    ensures CountOf(HandlerTrace(metadata, handlerReady, answer), Reply)
         == (if answer.Some? && answer.value.Failed? && metadata.messageType != Oneway then 1 else 0)
    ensures CountOf(HandlerTrace(metadata, handlerReady, answer), Report) == 0
  {
    AnswerCounts(Start(Create(metadata), handlerReady).next, answer);
    FrontCount(metadata, handlerReady, Reply);
    FrontCount(metadata, handlerReady, Report);
    HandlerCounts(metadata, handlerReady, answer, Reply);
    HandlerCounts(metadata, handlerReady, answer, Report);
  }

  /** Over the life of a handler-based request:
      - the filter keeps its callback contract;
      - decoding resumes exactly when the handler answers with a ready pool or a connection
        error, so a request whose handler never answers stays paused until it is destroyed;
      - the request is handed to the handler once if the handler's pool was ready or became
        ready, and never otherwise;
      - a failure gets exactly one local reply unless the request is one-way;
      - no outlier detector hears of anything;
      - the request unregisters from the handler when it is released. */
  lemma HandlerLifecycle(metadata: Metadata, handlerReady: bool, answer: Option<HandlerAnswer>)
    requires Answerable(metadata, handlerReady, answer)
    ensures var t := HandlerTrace(metadata, handlerReady, answer);
      && WellBehaved(Contract(t))
      && CountOf(t, Resume) == AnswerResumes(answer)
      && CountOf(t, Write) == (if handlerReady || (answer.Some? && answer.value.Ready?) then 1 else 0)
      && CountOf(t, Reply) == (if answer.Some? && answer.value.Failed? && metadata.messageType != Oneway then 1 else 0)
      && CountOf(t, Report) == 0
      && HandlerDeregistered in t
  {
    var t := HandlerTrace(metadata, handlerReady, answer);
    HandlerFilter(metadata, handlerReady, answer);
    AcceptsIffWellBehaved(Contract(t));
    HandlerResumes(metadata, handlerReady, answer);
    HandlerWrites(metadata, handlerReady, answer);
    HandlerReplies(metadata, handlerReady, answer);
    assert t[|t| - 1] == HandlerDeregistered;
  }
}

=== FILE: upstream_request.dfy ===
/**
  UpstreamRequest: the upstream request that borrows a connection from a TCP connection pool.

  Each operation is a pure transition from the request's state to its next state plus the
  events it produced. The connection pool, the codec and the network are not modelled: the
  pool's answers are inputs, and encoding plus writing is the single `Written` event.
 */
module UpstreamRequest {
  import opened Common
  import opened MetaProtocol
  import opened Filter
  import opened UpstreamBase

  datatype PoolRequest = PoolRequest(
    base: Base,
    poolHandle: Option<Handle>,   // conn_pool_handle_: a connection request still pending
    connData: Option<Conn>)       // conn_data_: the connection this request holds

  /** A pending pool request and a held connection never coexist. */
  predicate Valid(r: PoolRequest) {
    r.poolHandle.None? || r.connData.None?
  }

  datatype Transition = Transition(next: PoolRequest, events: seq<Event>)

  datatype Started = Started(next: PoolRequest, events: seq<Event>, status: FilterStatus)

  /** How `newConnection` answers: a pending request to wait on, or a callback it already made
      before returning null. */
  datatype NewConnection =
    | Pending(handle: Handle)
    | ReadyInline(conn: Conn, readyHost: Host)
    | FailedInline(reason: PoolFailureReason, failedHost: Option<Host>)

  function Create(metadata: Metadata): (r: PoolRequest)
    ensures r.poolHandle.None? && r.connData.None? && r.base == UpstreamBase.Create(metadata)
  {
    PoolRequest(UpstreamBase.Create(metadata), None, None)
  }

  /** onPoolFailure dereferences the host for the reply's message and for the outlier report. */
  predicate FailureNeedsHost(messageType: MessageType, reason: PoolFailureReason) {
    ReplyNamesHost(messageType, reason) || reason == Timeout || reason == RemoteConnectionFailure
  }

  /** start: ask the pool for a connection; pause iff the pool left a request pending. */
  function Start(r: PoolRequest, answer: NewConnection): (s: Started)
    requires r.poolHandle.None? && r.connData.None?
    requires answer.FailedInline? && FailureNeedsHost(r.base.metadata.messageType, answer.reason) ==> answer.failedHost.Some?
    ensures s.status == PauseIteration <==> answer.Pending?
    ensures s.status != PauseIteration ==> s.status == ContinueIteration
    ensures answer.Pending? ==> s.next.poolHandle == Some(answer.handle) && s.next.connData.None? && s.events == []
    ensures !answer.Pending? ==> s.next.poolHandle.None?
    ensures Valid(s.next)
  {
    match answer
    case Pending(handle) =>
      Started(r.(poolHandle := Some(handle)), [], PauseIteration)
    case ReadyInline(conn, host) =>
      var t := OnPoolReady(r, conn, host);
      Started(t.next, t.events, ContinueIteration)
    case FailedInline(reason, host) =>
      var t := OnPoolFailure(r, reason, host);
      Started(t.next, t.events, ContinueIteration)
  }

  /** encodeData: encode the buffered request and write it on the held connection. The source
      asserts a connection is held and no pool request is pending; those are the requires. */
  function EncodeData(r: PoolRequest): (t: Transition)
    requires r.connData.Some? && r.poolHandle.None?
    ensures t.next.base.bufferLength == 0 && t.next.connData == r.connData
    ensures CountOf(t.events, Write) == 1 && forall k | k != Write :: CountOf(t.events, k) == 0
    ensures Written(r.connData.value, r.base.metadata, r.base.bufferLength) in t.events
    ensures t.next == r.(base := r.base.(bufferLength := 0))
  {
    SingleEvent(Written(r.connData.value, r.base.metadata, r.base.bufferLength));
    Transition(r.(base := r.base.(bufferLength := 0)),
               [Written(r.connData.value, r.base.metadata, r.base.bufferLength)])
  }

  /** onPoolFailure: mimic an upstream reset, drain the buffer, and for a connection error report
      to the outlier detector and resume decoding. */
  function OnPoolFailure(r: PoolRequest, reason: PoolFailureReason, host: Option<Host>): (t: Transition)
    requires r.connData.None?
    requires FailureNeedsHost(r.base.metadata.messageType, reason) ==> host.Some?
    ensures t.next.poolHandle.None? && t.next.connData.None?
    ensures t.next.base.bufferLength == 0
    ensures t.next.base.host == host
    ensures t.next.base.responseComplete == r.base.responseComplete
    ensures t.next.base.metadata == r.base.metadata
    ensures t.next == r.(base := r.base.(host := host, bufferLength := 0), poolHandle := None)
  {
    var b := r.base.(host := host);
    Transition(r.(base := b.(bufferLength := 0), poolHandle := None),
               [HostSelected(host)] + (OnUpstreamConnectionReset(b, reason) + FailureTail(reason, host)))
  }

  /** What onPoolFailure adds to the reset: an outlier report for a timeout or a remote
      failure, and a resume for every connection error. */
  function FailureEffects(reason: PoolFailureReason, k: Kind): nat {
    match k
    case Report => if reason == Timeout || reason == RemoteConnectionFailure then 1 else 0
    case Resume => if IsConnectionError(reason) then 1 else 0
    case _ => 0
  }

  /** The part of onPoolFailure after the reset. */
  function FailureTail(reason: PoolFailureReason, host: Option<Host>): (events: seq<Event>)
    requires reason == Timeout || reason == RemoteConnectionFailure ==> host.Some?
    ensures forall k :: CountOf(events, k) == FailureEffects(reason, k)
    ensures reason == Timeout ==> Outlier(host.value, LocalOriginTimeout) in events
    ensures reason == RemoteConnectionFailure ==> Outlier(host.value, LocalOriginConnectFailed) in events
  {
    var outlier :=
      if reason == Timeout then [Outlier(host.value, LocalOriginTimeout)]
      else if reason == RemoteConnectionFailure then [Outlier(host.value, LocalOriginConnectFailed)]
      else [];
    var resume := if IsConnectionError(reason) then [ContinueDecoding] else [];
    SingleEvent(ContinueDecoding);
    if reason == Timeout then
      SingleEvent(Outlier(host.value, LocalOriginTimeout));
      Concat2(outlier, resume);
      outlier + resume
    else if reason == RemoteConnectionFailure then
      SingleEvent(Outlier(host.value, LocalOriginConnectFailed));
      Concat2(outlier, resume);
      outlier + resume
    else
      Concat2(outlier, resume);
      outlier + resume
  }

  /** onPoolReady: take the connection, record the upstream address, resume decoding if `start`
      paused, send the request, and hand a stream-init connection over to the owner. */
  function OnPoolReady(r: PoolRequest, conn: Conn, host: Host): (t: Transition)
    requires r.connData.None?
    ensures t.next.poolHandle.None?
    ensures t.next.connData == (if r.base.metadata.messageType == StreamInit then None else Some(conn))
    ensures t.next.base.host == Some(host)
    ensures t.next.base.requestComplete && t.next.base.bufferLength == 0
    ensures t.next.base.responseComplete == r.base.responseComplete
    ensures t.next.base.metadata
         == r.base.metadata.(headers := r.base.metadata.headers[RealServerAddress := conn.remoteAddress])
  {
    var continueDecoding := r.poolHandle.Some?;
    var b := r.base.(host := Some(host));
    var md := b.metadata.(headers := b.metadata.headers[RealServerAddress := conn.remoteAddress]);
    var held := PoolRequest(b.(metadata := md), None, Some(conn));
    var sent := EncodeData(held);
    var kept := if md.messageType == StreamInit then None else Some(conn);
    Transition(sent.next.(connData := kept, base := sent.next.base.(requestComplete := true)),
               (ReadyPrelude(host, conn, md.messageType) + OnRequestStart(continueDecoding))
               + (sent.events + StreamInitHandoff(conn, md.messageType)))
  }

  /** onPoolReady up to the resume: the owner first hears of the host, the successful connection
      is reported, and only a request message registers for upstream callbacks. */
  function ReadyPrelude(host: Host, conn: Conn, messageType: MessageType): (events: seq<Event>)
    ensures CountOf(events, Select) == 1 && CountOf(events, Report) == 1
    ensures CountOf(events, Register) == (if messageType == MessageType.Request then 1 else 0)
    ensures forall k | k != Select && k != Report && k != Register :: CountOf(events, k) == 0
    ensures events[0] == HostSelected(Some(host))
    ensures Outlier(host, LocalOriginConnectSuccess) in events
    ensures AddUpstreamCallbacks(conn) in events <==> messageType == MessageType.Request
  {
    var reported := [HostSelected(Some(host)), Outlier(host, LocalOriginConnectSuccess)];
    var callbacks := if messageType == MessageType.Request then [AddUpstreamCallbacks(conn)] else [];
    SingleEvent(HostSelected(Some(host)));
    SingleEvent(Outlier(host, LocalOriginConnectSuccess));
    SingleEvent(AddUpstreamCallbacks(conn));
    assert reported == [HostSelected(Some(host))] + [Outlier(host, LocalOriginConnectSuccess)];
    Concat2([HostSelected(Some(host))], [Outlier(host, LocalOriginConnectSuccess)]);
    Concat2(reported, callbacks);
    reported + callbacks
  }

  /** A stream-init request resets its stream and then hands its connection to the owner. */
  function StreamInitHandoff(conn: Conn, messageType: MessageType): (events: seq<Event>)
    ensures forall k | k == Reset || k == Handoff || k == Dispose :: CountOf(events, k) == (if messageType == StreamInit then 1 else 0)
    ensures forall k | k != Reset && k != Handoff && k != Dispose :: CountOf(events, k) == 0
    ensures SetUpstreamConnection(conn) in events <==> messageType == StreamInit
    ensures forall i, j | 0 <= i < |events| && 0 <= j < |events| && events[i].ResetStream? && events[j].SetUpstreamConnection? :: i < j
  {
    SingleEvent(ResetStream);
    SingleEvent(SetUpstreamConnection(conn));
    assert [ResetStream, SetUpstreamConnection(conn)] == [ResetStream] + [SetUpstreamConnection(conn)];
    Concat2([ResetStream], [SetUpstreamConnection(conn)]);
    if messageType == StreamInit then [ResetStream, SetUpstreamConnection(conn)] else []
  }

  /** releaseUpStreamConnection: cancel a pending pool request, close the held connection only
      when asked to, and in any case destroy its connection data, which gives it back to the
      pool. Afterwards the request is detached. */
  function Release(r: PoolRequest, close: bool): (t: Transition)
    requires Valid(r)
    ensures t.next.base.streamReset
    ensures t.next.poolHandle.None? && t.next.connData.None?
    ensures t.next.base.metadata == r.base.metadata
    ensures t.next == r.(base := r.base.(streamReset := true), poolHandle := None, connData := None)
  {
    var cancel := if r.poolHandle.Some? then [PoolCancelled(r.poolHandle.value)] else [];
    var drop := DropConnection(r.connData, close);
    Transition(r.(base := r.base.(streamReset := true), poolHandle := None, connData := None), cancel + drop)
  }

  /** onResponseComplete: mark the response complete and give the connection back. */
  function OnResponseComplete(r: PoolRequest): (t: Transition)
    ensures t.next.base.responseComplete && t.next.connData.None?
    ensures t.next.poolHandle == r.poolHandle
    ensures t.next.base.metadata == r.base.metadata
    ensures t.next == r.(base := r.base.(responseComplete := true), connData := None)
  {
    Transition(r.(base := r.base.(responseComplete := true), connData := None),
               if r.connData.Some? then [ConnectionReleased(r.connData.value)] else [])
  }

  /** onUpstreamConnectionEvent on the held connection; the state does not change. */
  function OnConnectionEvent(r: PoolRequest, event: ConnectionEvent): (t: Transition)
    requires !r.base.responseComplete
    requires event == RemoteClose || event == LocalClose
    requires r.base.host.Some? || (event == LocalClose && r.base.metadata.messageType == Oneway)
    ensures t.next == r
  {
    Transition(r, OnUpstreamConnectionEvent(r.base, event))
  }

  // -----------------------------------------------------------------------------------------
  // What each transition tells the owner
  // -----------------------------------------------------------------------------------------

  /** onPoolFailure tells the owner the host once, ends the stream as a reset would, reports
      timeouts and remote failures to the outlier detector, and resumes decoding iff the reason
      is a connection error; it produces nothing else. */
  lemma OnPoolFailureOutcome(r: PoolRequest, reason: PoolFailureReason, host: Option<Host>)
    requires r.connData.None?
    requires FailureNeedsHost(r.base.metadata.messageType, reason) ==> host.Some?
    ensures forall k :: CountOf(OnPoolFailure(r, reason, host).events, k)
                     == (if k == Select then 1 else 0)
                      + StreamEnd(r.base.metadata.messageType, r.base.responseComplete, k) + FailureEffects(reason, k)
  {
    forall k ensures CountOf(OnPoolFailure(r, reason, host).events, k)
                  == (if k == Select then 1 else 0)
                   + StreamEnd(r.base.metadata.messageType, r.base.responseComplete, k) + FailureEffects(reason, k) {
      OnPoolFailureCount(r, reason, host, k);
    }
  }

  /** `OnPoolFailureOutcome` for one kind. */
  lemma OnPoolFailureCount(r: PoolRequest, reason: PoolFailureReason, host: Option<Host>, k: Kind)
    requires r.connData.None?
    requires FailureNeedsHost(r.base.metadata.messageType, reason) ==> host.Some?
    ensures CountOf(OnPoolFailure(r, reason, host).events, k)
         == (if k == Select then 1 else 0)
          + StreamEnd(r.base.metadata.messageType, r.base.responseComplete, k) + FailureEffects(reason, k)
  {
    var b := r.base.(host := host);
    var reset := OnUpstreamConnectionReset(b, reason);
    var tail := FailureTail(reason, host);
    ConnectionResetOutcome(b, reason);
    SingleEvent(HostSelected(host));
    CountAppend(reset, tail, k);
    CountAppend([HostSelected(host)], reset + tail, k);
  }

  /** The reply of a pool failure names the host, and the host's outlier detector hears of
      timeouts and remote connection failures. */
  lemma OnPoolFailureCalls(r: PoolRequest, reason: PoolFailureReason, host: Option<Host>)
    requires r.connData.None?
    requires FailureNeedsHost(r.base.metadata.messageType, reason) ==> host.Some?
    ensures var events := OnPoolFailure(r, reason, host).events;
      && (r.base.metadata.messageType != Oneway ==> SendLocalReply(ResetReply(r.base.(host := host), reason), false) in events)
      && (reason == Timeout ==> Outlier(host.value, LocalOriginTimeout) in events)
      && (reason == RemoteConnectionFailure ==> Outlier(host.value, LocalOriginConnectFailed) in events)
  {
    ConnectionResetOutcome(r.base.(host := host), reason);
  }

  /** What onPoolReady produces: the host told to the owner, one success report, a callback
      registration for a request message, one resume iff `start` paused, one write, and for a
      stream-init message one reset and one handoff, which also disposes of the connection. */
  function ReadyEffects(paused: bool, messageType: MessageType, k: Kind): nat {
    var streamInit := messageType == StreamInit;
    match k
    case Select => 1
    case Report => 1
    case Register => if messageType == MessageType.Request then 1 else 0
    case Resume => if paused then 1 else 0
    case Write => 1
    case Reset => if streamInit then 1 else 0
    case Handoff => if streamInit then 1 else 0
    case Dispose => if streamInit then 1 else 0
    case _ => 0
  }

  /** onPoolReady tells the owner the host, reports a successful connection, registers a request
      message for upstream callbacks, resumes decoding iff `start` paused, writes the request
      once, and for a stream-init message resets the stream and hands the connection over; it
      produces nothing else. */
  lemma OnPoolReadyOutcome(r: PoolRequest, conn: Conn, host: Host)
    requires r.connData.None?
    ensures forall k :: CountOf(OnPoolReady(r, conn, host).events, k)
                     == ReadyEffects(r.poolHandle.Some?, r.base.metadata.messageType, k)
  {
    forall k ensures CountOf(OnPoolReady(r, conn, host).events, k)
                  == ReadyEffects(r.poolHandle.Some?, r.base.metadata.messageType, k) {
      OnPoolReadyCount(r, conn, host, k);
    }
  }

  /** `OnPoolReadyOutcome` for one kind. */
  lemma OnPoolReadyCount(r: PoolRequest, conn: Conn, host: Host, k: Kind)
    requires r.connData.None?
    ensures CountOf(OnPoolReady(r, conn, host).events, k)
         == ReadyEffects(r.poolHandle.Some?, r.base.metadata.messageType, k)
  {
    var mt := r.base.metadata.messageType;
    var head, sent := ReadySplit(r, conn, host);
    var p, st, h := ReadyPrelude(host, conn, mt), OnRequestStart(r.poolHandle.Some?), StreamInitHandoff(conn, mt);
    PartsCount(p, st, sent, h, k);
    ReadyPartCounts(host, conn, r.poolHandle.Some?, mt, k);
    ReadyEffectsParts(r.poolHandle.Some?, mt, k);
  }

  /** Counting over a trace cut in four. */
  lemma PartsCount(a: seq<Event>, b: seq<Event>, c: seq<Event>, d: seq<Event>, k: Kind)
    ensures CountOf((a + b) + (c + d), k) == CountOf(a, k) + CountOf(b, k) + CountOf(c, k) + CountOf(d, k)
  {
    CountAppend(a, b, k);
    CountAppend(c, d, k);
    CountAppend(a + b, c + d, k);
  }

  /** The counts of onPoolReady's parts other than the write, for one kind. */
  lemma ReadyPartCounts(host: Host, conn: Conn, paused: bool, mt: MessageType, k: Kind)
    ensures CountOf(ReadyPrelude(host, conn, mt), k)
         == if k == Select || k == Report || (k == Register && mt == MessageType.Request) then 1 else 0
    ensures CountOf(OnRequestStart(paused), k) == if k == Resume && paused then 1 else 0
    ensures CountOf(StreamInitHandoff(conn, mt), k)
         == if (k == Reset || k == Handoff || k == Dispose) && mt == StreamInit then 1 else 0
  {
  }

  /** `ReadyEffects` is the sum of what onPoolReady's four parts produce. */
  lemma ReadyEffectsParts(paused: bool, mt: MessageType, k: Kind)
    ensures ReadyEffects(paused, mt, k)
         == (if k == Select || k == Report || (k == Register && mt == MessageType.Request) then 1 else 0)
          + (if k == Resume && paused then 1 else 0)
          + (if k == Write then 1 else 0)
          + (if (k == Reset || k == Handoff || k == Dispose) && mt == StreamInit then 1 else 0)
  {
  }

  /** onPoolReady's events, cut where the request is written. */
  lemma ReadySplit(r: PoolRequest, conn: Conn, host: Host) returns (head: seq<Event>, sent: seq<Event>)
    requires r.connData.None?
    ensures head == ReadyPrelude(host, conn, r.base.metadata.messageType) + OnRequestStart(r.poolHandle.Some?)
    ensures forall k :: CountOf(sent, k) == if k == Write then 1 else 0
    ensures OnPoolReady(r, conn, host).events == head + (sent + StreamInitHandoff(conn, r.base.metadata.messageType))
  {
    var b := r.base.(host := Some(host));
    var md := b.metadata.(headers := b.metadata.headers[RealServerAddress := conn.remoteAddress]);
    head := ReadyPrelude(host, conn, md.messageType) + OnRequestStart(r.poolHandle.Some?);
    sent := EncodeData(PoolRequest(b.(metadata := md), None, Some(conn))).events;
  }

  /** onPoolReady reports the successful connection, registers for upstream callbacks only for a
      request message, and hands the connection over exactly when the request stops holding it,
      so a connection is never both kept and handed off. */
  lemma OnPoolReadyCalls(r: PoolRequest, conn: Conn, host: Host)
    requires r.connData.None?
    ensures var t := OnPoolReady(r, conn, host);
      && Outlier(host, LocalOriginConnectSuccess) in t.events
      && (AddUpstreamCallbacks(conn) in t.events <==> r.base.metadata.messageType == MessageType.Request)
      && (SetUpstreamConnection(conn) in t.events <==> t.next.connData.None?)
  {
  }

  /** The one write of onPoolReady sends the whole buffered request on the new connection, with
      the connection's remote address recorded in the metadata. */
  lemma OnPoolReadyWrite(r: PoolRequest, conn: Conn, host: Host)
    requires r.connData.None?
    ensures var md := r.base.metadata.(headers := r.base.metadata.headers[RealServerAddress := conn.remoteAddress]);
      Written(conn, md, r.base.bufferLength) in OnPoolReady(r, conn, host).events
  {
  }

  /** Release cancels a pending pool request, closes a held connection only when asked to, and
      gives a held connection back exactly once either way; it calls nothing on the owner. */
  lemma ReleaseOutcome(r: PoolRequest, close: bool)
    requires Valid(r)
    ensures var events := Release(r, close).events;
      && CountOf(events, Cancel) == (if r.poolHandle.Some? then 1 else 0)
      && CountOf(events, Close) == (if close && r.connData.Some? then 1 else 0)
      && CountOf(events, Dispose) == (if r.connData.Some? then 1 else 0)
      && (forall k | k != Cancel && k != Close && k != Dispose :: CountOf(events, k) == 0)
  {
    var cancel := if r.poolHandle.Some? then [PoolCancelled(r.poolHandle.value)] else [];
    var drop := DropConnection(r.connData, close);
    assert Release(r, close).events == cancel + drop;
    SingleEvent(PoolCancelled(0));
    if r.poolHandle.Some? {
      SingleEvent(PoolCancelled(r.poolHandle.value));
    }
    Concat2(cancel, drop);
  }

  /** The connection part of a release, with its counts. */
  function DropConnection(conn: Option<Conn>, close: bool): (drop: seq<Event>)
    ensures CountOf(drop, Close) == (if close && conn.Some? then 1 else 0)
    ensures CountOf(drop, Dispose) == (if conn.Some? then 1 else 0)
    ensures forall k | k != Close && k != Dispose :: CountOf(drop, k) == 0
  {
    if conn.None? then
      SingleEvent(ResetStream);
      []
    else if close then
      SingleEvent(ConnectionClosed(conn.value));
      SingleEvent(ConnectionReleased(conn.value));
      Concat2([ConnectionClosed(conn.value)], [ConnectionReleased(conn.value)]);
      assert [ConnectionClosed(conn.value), ConnectionReleased(conn.value)]
          == [ConnectionClosed(conn.value)] + [ConnectionReleased(conn.value)];
      [ConnectionClosed(conn.value), ConnectionReleased(conn.value)]
    else
      SingleEvent(ConnectionReleased(conn.value));
      [ConnectionReleased(conn.value)]
  }

  /** Release cancels exactly the pending pool request, closes the held connection exactly when
      asked to close it, and gives the held connection back whether or not it closed it, after
      the close. */
  lemma ReleaseCalls(r: PoolRequest, close: bool)
    requires Valid(r)
    ensures var events := Release(r, close).events;
      && (forall h: Handle :: PoolCancelled(h) in events <==> r.poolHandle == Some(h))
      && (forall c :: ConnectionClosed(c) in events <==> close && r.connData == Some(c))
      && (forall c :: ConnectionReleased(c) in events <==> r.connData == Some(c))
      && (forall i, j | 0 <= i < |events| && 0 <= j < |events| && events[i].ConnectionClosed? && events[j].ConnectionReleased? :: i < j)
  {
  }

  /** onResponseComplete gives a held connection back to the pool and calls nothing on the owner. */
  lemma ResponseCompleteOutcome(r: PoolRequest)
    ensures var events := OnResponseComplete(r).events;
      && CountOf(events, Dispose) == (if r.connData.Some? then 1 else 0)
      && (forall k | k != Dispose :: CountOf(events, k) == 0)
      && (forall c :: ConnectionReleased(c) in events <==> r.connData == Some(c))
  {
    SingleEvent(ResetStream);
    if r.connData.Some? {
      SingleEvent(ConnectionReleased(r.connData.value));
    }
  }
}
